=== FILE: README.md ===
# Juno RB56SC integration: a Dafny model

This project models the parts of the Juno RB56SC Home Assistant integration
that have sequential logic of their own, and proves properties of them. The
integration exposes a Zigbee light (manufacturer "Juno", model RB56SC) through
a proxy entity that forwards to the ZHA light entity.

- **Release script** (`scripts/bump_version.py`). Covers
  - reading a `M.m.p` version and bumping it (major, minor or patch);
  - printing it back;
  - rewriting the `Current version: **…**` line of the README;
  - splicing a new entry into the changelog's list of lines;
  - the `main` flow that chooses the new version and updates the three files.
  Files are values (`None` when missing), the command line is a record and
  the date is a parameter.
- **Config flow** (`config_flow.py`). Covers
  - the candidate filter over the device registry;
  - the labels shown for candidates;
  - the user step's decisions: abort when nothing is found, show the form,
    abort when the device is already configured, or create the entry;
  - the options step.
  The device registry is a sequence of records and the configured unique ids
  are a set. Stored config entries are a sequence, so the "one entry per
  device" invariant can be stated over any run of submissions.
- **Proxy light** (`light.py`). Covers
  - the platform setup, which takes the first ZHA light entity of the device;
  - the proxy's initial state;
  - its three transitions: refresh from the upstream entity, turn on and
    turn off.
  The service bus is the proxy's log of issued calls. The upstream entity's
  state is an optional record.

Modules:

| module | file | contents |
|---|---|---|
| `Wrappers` | wrappers.dfy | `Option` (Python `None`), `Result` (raised errors) |
| `Search` | search.dfy | the first-match `for … break` search over a sequence |
| `Text` | text.dfy | digit strings and `int()`/`str()` of naturals, `split`/`join`, substring test, ASCII `lower()` |
| `SemVer` | semver.dfy | version triple, parse/format, bump, precedence order |
| `Changelog` | changelog.dfy | insert position, entry shape, splice |
| `Readme` | readme.dfy | the version-line pattern, `re.sub`, `re.search`, `re.findall` |
| `Release` | release.dfy | version choice and the whole run of `main` |
| `Registry` | registry.dfy | the `const.py` manufacturer and model, device records, Python `or` and f-string rendering of `str \| None` |
| `ConfigFlow` | config_flow.dfy | candidates, user step, options step, stored entries |
| `ProxyLight` | proxy_light.dfy | setup, proxy state, transitions, command runs |

Points where the code's behaviour is easy to misread:

- Devices that are already configured are still offered in the selection
  form. A configured device is rejected only when it is submitted, with
  `already_configured` (config_flow.py:40-41).
- The user step never reports a form error: its `errors` map is always
  empty.
- The README update replaces every version line, since `re.sub` rewrites
  every match, not only the first.

Behaviour of the source that the model keeps on purpose:

- `turn_on` stores a supplied brightness before the service call and sets
  `is_on` only after the call returns. If the call raises, the proxy keeps
  the new brightness but not the new on/off state. The `succeeds` flag of
  `TurnOn` and `TurnOff` models this.
- A candidate label reads `None (…)` when both the name and the model are
  `None`, as the f-string prints it.
- An upstream brightness attribute that is present but `None` is copied as
  `None`. Only a missing attribute falls back to 255.
- A `--changes` text is one element of the line list even if it contains
  newlines.
- Of the entity entries, only the first ZHA light is looked at. If its
  entity id is empty (falsy), no proxy is created.

## Model

| member | source | states |
|---|---|---|
| `Text.NatToStringRoundTrip` | scripts/bump_version.py:23-27 | reading back a printed version component gives the same number |
| `Text.CanonicalNumeralRoundTrip` | scripts/bump_version.py:20 | a numeral without leading zeros is exactly the printed form of its value |
| `Text.JoinSplit` | scripts/bump_version.py:20 | joining the pieces of `split(".")` with dots gives back the string |
| `Text.SplitJoin` | scripts/bump_version.py:20 | splitting a dot-join of dot-free pieces gives back exactly those pieces |
| `Text.ContainsIffOccurs` | custom_components/juno_rb56sc/config_flow.py:73 | the left-to-right `in` scan succeeds iff the needle occurs at some offset |
| `Text.LeadingZeroIgnored` | scripts/bump_version.py:20 | `int()` of a digit string with a leading zero is the value without it |
| `SemVer.Parse` | scripts/bump_version.py:20 | a version parses iff it splits on dots into exactly three digit strings, and then it is the triple of their decimal values, as `int()` reads them; otherwise the error is `InvalidVersion` |
| `SemVer.ParseFormat` | scripts/bump_version.py:20-27 | a printed version is canonical and parses back to the same triple, so every output is a valid input |
| `SemVer.FormatParse` | scripts/bump_version.py:20 | a canonical version string is the printed form of what it parses to |
| `SemVer.LeadingZeroParseExample` | scripts/bump_version.py:20 | "1.02.3" reads as (1, 2, 3), as `int()` reads each component |
| `SemVer.Bump` | scripts/bump_version.py:22-29 | the bump succeeds iff the type is major, minor or patch; otherwise the error is `InvalidBumpType`; a successful bump is strictly higher in precedence |
| `SemVer.PatchIsSuccessor` | scripts/bump_version.py:26-27 | a patch bump is the immediate successor in precedence: no version lies strictly between |
| `SemVer.MinorIsLeastNewMinor` | scripts/bump_version.py:24-25 | a minor bump keeps the major and is the least higher version with a new (major, minor) pair |
| `SemVer.MajorIsLeastNewMajor` | scripts/bump_version.py:22-23 | a major bump is the least higher version with a new major |
| `SemVer.BumpVersion` | scripts/bump_version.py:18-29 | a malformed version is reported before a bad bump type; a parsable version with a valid bump type always succeeds; a result is canonical, re-parses and is higher than the input |
| `SemVer.BumpVersionComponents` | scripts/bump_version.py:22-27 | major gives (a+1,0,0), minor gives (a,b+1,0), patch gives (a,b,c+1) |
| `SemVer.MinorBumpExample` | scripts/bump_version.py:24-25 | "1.2.3" bumped by minor is "1.3.0" |
| `Search.FirstFrom` | scripts/bump_version.py:73-76 | the search returns the first index at or after the start whose element passes the test, and every element before it fails; or nothing when all fail; light.py:43-46 uses the same search for the first ZHA light entity |
| `Changelog.InsertPos` | scripts/bump_version.py:72-76 | the insert position is the first `## [` line's index, or 0 if there is none |
| `Changelog.HeaderLine` | scripts/bump_version.py:81 | the new header line is itself a version header and ends with a newline |
| `Changelog.Entry` | scripts/bump_version.py:80-96 | the entry is the header and a blank line, then the changes text and a blank line or the three-line placeholder; every line ends in a newline; a second header can only come from a changes text starting with `## [` |
| `Changelog.Prepare` | scripts/bump_version.py:99 | the result grows by the entry's length; the entry sits at the insert position; removing it gives back the original lines |
| `Changelog.PrepareShiftsLines` | scripts/bump_version.py:99 | lines before the insert point keep their index and later lines move down by the entry's length |
| `Changelog.NewEntryComesFirst` | scripts/bump_version.py:72-99 | after the edit, the new header is the first version header, at the old first header's position |
| `Changelog.NewestEntryOnTop` | scripts/bump_version.py:72-99 | two successive releases stack their entries newest first, in front of the old first header |
| `Readme.MatchAt` | scripts/bump_version.py:52 | a match the hand-written matcher reports is a match of the regex: the literal prefix, a non-empty run of digits and dots, and `**` |
| `Readme.MatchAtFindsEveryRun` | scripts/bump_version.py:52 | every way the regex can match at a position is the match the matcher reports there, so the match is unique and none is missed |
| `Readme.UpdateReadme` | scripts/bump_version.py:46-63 | the README is rewritten iff `re.search` finds the version line; a rewritten README had a leftmost version line and now contains the new one; for a dotted-number version, every version line `re.findall` finds in it is the new one, as many as before; the text before the leftmost version line is kept, that line becomes the new one, and the rest is rewritten the same way, so a README with one version line changes only that line |
| `Readme.NoMarkerUnchanged` | scripts/bump_version.py:55-56 | text without the version line passes through `re.sub` unchanged |
| `Readme.MatchAtOffsetIsFound` | scripts/bump_version.py:55 | a match at any offset makes `re.search` succeed |
| `Readme.ReplaceCopiesPrefix` | scripts/bump_version.py:56 | `re.sub` copies unchanged every character before the first offset where a match starts |
| `Readme.ReplaceFrame` | scripts/bump_version.py:52-56 | the rewrite keeps the text before the leftmost match, puts the replacement in place of the match, and continues after it |
| `Readme.ReplaceFrameLast` | scripts/bump_version.py:52-56 | when nothing matches after the leftmost match, the rewrite changes only that match and keeps the rest of the text |
| `Readme.HasMarkerHasLeftmostMatch` | scripts/bump_version.py:55 | whenever `re.search` finds the version line, there is a leftmost match for `re.sub` to start from |
| `Readme.ReplaceFrameAll` | scripts/bump_version.py:52-56 | at any leftmost match the rewrite splits as above; when nothing matches after it, the rest of the text is kept as is |
| `Readme.MarkerMatches` | scripts/bump_version.py:52-53 | the replacement line for a dotted-number version is itself one whole match of the pattern |
| `Readme.ReplaceIdempotent` | scripts/bump_version.py:52-56 | rewriting twice with the same dotted-number version gives the same text as once |
| `Readme.ReplaceKeepsMarker` | scripts/bump_version.py:52-56 | for a dotted-number version, a rewritten README still contains a version line the pattern finds |
| `Readme.UpdateReadmeIdempotent` | scripts/bump_version.py:46-63 | running the README update twice with the same version is the same as once |
| `Readme.FindallIffHasMarker` | scripts/bump_version.py:55-56 | the `re.sub` scan finds a match iff `re.search` does |
| `Readme.ReplaceWritesReplacement` | scripts/bump_version.py:53-56 | when the version line is present, the rewritten text contains the replacement line, whatever the version text |
| `Readme.ReplaceWritesVersion` | scripts/bump_version.py:52-56 | with a dotted-number version, `re.findall` on the rewritten text finds exactly one new version line per original match and nothing else |
| `Release.NewVersion` | scripts/bump_version.py:148-151 | a non-empty `--version` is taken as given without parsing the current one; otherwise the result is `bump_version(current, bump_type)`, which succeeds on a parsable version with a valid type and is then higher than the current one |
| `Release.Run` | scripts/bump_version.py:139-166 | a missing manifest or version key stops the run; a failed version choice stops it with that error; otherwise the chosen version is returned and written under the manifest's version key, every other key is unchanged, a README with the version line is rewritten by `update_readme` and one without is left alone, and an enabled, present changelog gets the new entry spliced in; `--no-changelog` leaves the changelog alone |
| `Release.UpdateManifest` | scripts/bump_version.py:30-35 | the manifest gets the new version under its version key; every other key keeps its value and no other key is added |
| `Release.UpdateReadmeFile` | scripts/bump_version.py:158-161 | a missing README stays missing; one without the version line is left as it was; any other is rewritten by `update_readme` |
| `Release.UpdateChangelogFile` | scripts/bump_version.py:163-166 | a present changelog gets the new entry unless `--no-changelog` is given; a missing one stays missing; with `--no-changelog` the file is left as it was |
| `Release.RunTouchesOnlyWhatItShould` | scripts/bump_version.py:158-164 | a README without the version line is unchanged; an updated changelog has the new header as its first version header |
| `Release.FormatIsVersionText` | scripts/bump_version.py:23-27 | a version printed by `bump_version` consists of digits and dots only, so the README pattern matches it |
| `Release.BumpReleaseWritesBumpedVersion` | scripts/bump_version.py:144-166 | without `--version`, on a parsable current version and a valid bump type, the run succeeds; it writes `bump_version`'s higher result into the manifest; every version line of the README shows it; an updated changelog's first version header is the new one |
| `Release.MinorReleaseExample` | scripts/bump_version.py:144-156 | a manifest at 1.2.3 with a minor bump gets 1.3.0 and keeps its other keys |
| `Registry.OrDefault` | custom_components/juno_rb56sc/light.py:78-79 | `x or default` gives the registry value when it is set and non-empty, else the default |
| `ConfigFlow.IsJunoIff` | custom_components/juno_rb56sc/config_flow.py:73 | a device is a candidate iff its manufacturer is set and non-empty and its lower-cased text contains "juno" |
| `ConfigFlow.JunoDevices` | custom_components/juno_rb56sc/config_flow.py:66-78 | the keys are exactly the candidates' ids; each key is labelled by the last candidate with that id |
| `ConfigFlow.CandidatesOfDistinctDevices` | custom_components/juno_rb56sc/config_flow.py:71-76 | with distinct registry ids, every candidate is listed under its id with its own label |
| `ConfigFlow.StepUser` | custom_components/juno_rb56sc/config_flow.py:30-64 | without input: abort `no_devices_found` iff no candidates, else a form over exactly the candidates; with input: abort `already_configured` iff the id is configured, else an entry with data `{device: id}`, titled by the listed label or "Juno RB56SC Light"; input without `device` raises `KeyError` |
| `ConfigFlow.FormThenSubmit` | custom_components/juno_rb56sc/config_flow.py:36-64 | a listed candidate is offered in the form even when configured; submitting it creates an entry titled with its label, or aborts if configured |
| `ConfigFlow.StepInit` | custom_components/juno_rb56sc/config_flow.py:96-106 | submitted options become the entry data unchanged, with an empty title; without input an empty `init` form is shown |
| `ConfigFlow.SubmitKeepsEntriesUnique` | custom_components/juno_rb56sc/config_flow.py:40-46 | one submission checked against the stored ids keeps every device id unique and leaves that id configured |
| `ConfigFlow.SubmitAllKeepsEntriesUnique` | custom_components/juno_rb56sc/config_flow.py:40-46 | after any sequence of submissions, no two entries share a device id and exactly the old and submitted ids are configured |
| `ProxyLight.NewLight` | custom_components/juno_rb56sc/light.py:63-83 | a new proxy is off, at brightness 255, with no calls issued, unique id `<device id>_juno_light`, and manufacturer/model falling back to "Juno"/"RB56SC" |
| `ProxyLight.SetupEntry` | custom_components/juno_rb56sc/light.py:22-52 | a proxy is created iff the device exists and its first ZHA light entity has a non-empty id; that entity is the one wrapped |
| `ProxyLight.UniqueIdsDiffer` | custom_components/juno_rb56sc/light.py:74 | proxies of different devices have different unique ids |
| `ProxyLight.Sync` | custom_components/juno_rb56sc/light.py:91-101 | with an upstream state: on iff the state is "on", brightness copied with 255 for a missing attribute, nothing else changes; without one nothing changes |
| `ProxyLight.TurnOn` | custom_components/juno_rb56sc/light.py:103-119 | exactly one `light.turn_on` call to the ZHA entity is appended, carrying brightness iff one was given; on after a successful call; brightness is the given value or unchanged |
| `ProxyLight.TurnOff` | custom_components/juno_rb56sc/light.py:121-131 | exactly one `light.turn_off` call to the ZHA entity is appended; off after a successful call; brightness unchanged |
| `ProxyLight.RunKeepsCallLog` | custom_components/juno_rb56sc/light.py:103-135 | over any command run the log only grows, by one call per switch command; every call targets the wrapped entity; the proxy's identity never changes |
| `ProxyLight.SetupThenRun` | custom_components/juno_rb56sc/light.py:48-50 | a proxy created by setup issues exactly one call per switch command, all to its ZHA entity |
| `ProxyLight.LastSwitchWins` | custom_components/juno_rb56sc/light.py:118-130 | with every call returning and no refresh in between, the proxy is on iff the last switch was a turn-on |
| `ProxyLight.SyncIdempotent` | custom_components/juno_rb56sc/light.py:93-96 | refreshing twice from the same upstream state equals refreshing once |
| `ProxyLight.SyncOverridesSwitches` | custom_components/juno_rb56sc/light.py:133-135 | after a refresh the cached state depends only on the upstream state, not on earlier switching |

## Left out

- File I/O, JSON, argparse and the printed messages of `scripts/bump_version.py`. The files are parameters and results of `Release.Run`. `get_current_version` and `update_manifest` are the manifest lookup and map update inside it.
- `datetime.now()`: the date is a parameter.
- `Release.Run`: the bump type is any string. argparse accepts only major, minor and patch; for anything else it exits at `parse_args` (line 130), before any file is read. The model keeps `bump_version`'s own `ValueError` path instead.
- `Release.Run`: manifest values are modelled as strings only. A non-string `version` value, which would make `split` fail, is not represented. JSON formatting is not modelled.
- `SemVer.Parse`: accepts only plain ASCII digit strings. It rejects components Python's `int()` also accepts: a sign, surrounding whitespace, underscores and non-ASCII digits. Pre-release and build metadata are not handled, as in the source.
- `Readme.MatchAt`: `\d` is ASCII digits only, whereas Python's `re` also matches other Unicode digits.
- `Readme.UpdateReadme`: the replacement is used literally. Backslash escapes that `re.sub` would process in a `--version` text are not modelled.
- `ConfigFlow.JunoDevices`: `lower()` is ASCII case folding only. The candidate map has no order, so the form's option order is not modelled.
- Host behaviour of the config flow: the `already_in_progress` abort for two concurrent flows on the same device, schema validation of submitted input, and ignored entries.
- The device's `identifiers` in the device info are passed through unchanged and not modelled.
- The `_LOGGER` calls of `light.py` (lines 36, 49, 52 and 97) and the logger of `config_flow.py` only write log messages. They affect no result, so they are not modelled.
- `async_write_ha_state`, async/await, the event loop, and the kinds of exception a service call can raise. Only whether the call returns is modelled.
- `custom_components/juno_rb56sc/__init__.py` is not part of this model. It only does lifecycle plumbing: `hass.data` bookkeeping, platform forwarding and unload/reload.
- `custom_components/juno_rb56sc/sensor.py` is not part of this model. It mirrors registry fields with the same `x or default` fallbacks that `Registry.OrDefault` covers.
- `custom_components/juno_rb56sc/const.py` is not part of this model as a file. `MANUFACTURER` and `MODEL` are constants of `Registry`. The domain name and `CONF_DEVICE` appear where they are used.

=== FILE: changelog.dfy ===
/** `prepare_changelog_entry` of `scripts/bump_version.py` as a pure edit
    of the changelog's list of lines. Lines are kept as `readlines()`
    returns them, each with its trailing newline; the date, which the script
    reads from the clock, is a parameter. */
module Changelog {
  import opened Wrappers
  import Search

  /** Every released version starts with a line beginning with this text. */
  const HeaderPrefix := "## ["

  /** What is written under the new header when no changes text is given. */
  const Placeholder: seq<string> := ["### Changed\n", "- [Add your changes here]\n", "\n"]

  predicate IsVersionHeader(line: string) {
    HeaderPrefix <= line
  }

  predicate EndsWithNewline(line: string) {
    |line| > 0 && line[|line| - 1] == '\n'
  }

  /** `f"## [{new_version}] - {date}\n"`. */
  function HeaderLine(version: string, date: string): (line: string)
    ensures IsVersionHeader(line) && EndsWithNewline(line)
  {
    HeaderPrefix + version + "] - " + date + "\n"
  }

  /** `insert_pos`: the index of the first version header, or 0 when the
      changelog has none. */
  function InsertPos(lines: seq<string>): (pos: nat)
    ensures pos <= |lines|
    ensures forall j :: 0 <= j < pos ==> !IsVersionHeader(lines[j])
    ensures (exists j :: 0 <= j < |lines| && IsVersionHeader(lines[j])) ==>
              pos < |lines| && IsVersionHeader(lines[pos])
    ensures (forall j :: 0 <= j < |lines| ==> !IsVersionHeader(lines[j])) ==> pos == 0
  {
    match Search.FirstFrom(lines, IsVersionHeader, 0)
    case Some(p) => p
    case None => 0
  }

  /** `new_entry`: the header line and a blank line, then either the
      changes text and a blank line or, when the text is empty, the
      placeholder section. */
  function Entry(version: string, date: string, changes: string): (entry: seq<string>)
    ensures |entry| >= 4
    ensures entry[0] == HeaderLine(version, date) && entry[1] == "\n"
    ensures entry[|entry| - 1] == "\n"
    ensures changes != "" ==> entry[2..] == [changes + "\n", "\n"]
    ensures changes == "" ==> entry[2..] == Placeholder
    ensures forall k :: 0 <= k < |entry| ==> EndsWithNewline(entry[k])
    ensures forall k :: 1 <= k < |entry| && IsVersionHeader(entry[k]) ==>
              k == 2 && IsVersionHeader(changes)
  {
    var tail := if changes != "" then [changes + "\n", "\n"] else Placeholder;
    assert !IsVersionHeader("\n");
    assert !IsVersionHeader(Placeholder[0]) by {
      assert Placeholder[0][2] != HeaderPrefix[2];
    }
    assert !IsVersionHeader(Placeholder[1]) by {
      assert Placeholder[1][0] != HeaderPrefix[0];
    }
    assert IsVersionHeader(changes + "\n") ==> IsVersionHeader(changes) by {
      if IsVersionHeader(changes + "\n") {
        assert (changes + "\n")[3] == '[';
        assert |changes| >= 4;
        assert changes[..4] == (changes + "\n")[..4];
      }
    }
    [HeaderLine(version, date), "\n"] + tail
  }

  /** `lines[insert_pos:insert_pos] = new_entry`: the entry is spliced in
      front of the first version header. Taking it out again gives back the
      original lines, so every original line survives, in order, and
      nothing else changes. */
  function Prepare(lines: seq<string>, version: string, date: string, changes: string): (out: seq<string>)
    ensures var p := InsertPos(lines); var e := Entry(version, date, changes);
      && |out| == |lines| + |e|
      && out[p..p + |e|] == e
      && out[..p] + out[p + |e|..] == lines
  {
    var p := InsertPos(lines);
    var e := Entry(version, date, changes);
    var out := lines[..p] + e + lines[p..];
    assert out[..p] == lines[..p];
    assert out[p + |e|..] == lines[p..];
    out
  }

  /** Every line of the result is an original line or an entry line, at a
      position fixed by the insert point: lines before it keep their index,
      lines after it move down by the entry's length. */
  lemma PrepareShiftsLines(lines: seq<string>, version: string, date: string, changes: string)
    ensures var out := Prepare(lines, version, date, changes);
      var p := InsertPos(lines); var e := Entry(version, date, changes);
      && (forall j :: 0 <= j < p ==> out[j] == lines[j])
      && (forall j :: p <= j < |lines| ==> out[j + |e|] == lines[j])
  {
    var e := Entry(version, date, changes);
    ShiftAround(Prepare(lines, version, date, changes), lines, InsertPos(lines), |e|);
  }

  /** When taking `m` items out of `out` at `p` leaves `lines`, the items
      before `p` sit where they were and the rest are `m` further on. */
  lemma ShiftAround(out: seq<string>, lines: seq<string>, p: nat, m: nat)
    requires p <= |lines| && |out| == |lines| + m
    requires out[..p] + out[p + m..] == lines
    ensures forall j :: 0 <= j < p ==> out[j] == lines[j]
    ensures forall j :: p <= j < |lines| ==> out[j + m] == lines[j]
  {
    forall j | 0 <= j < p ensures out[j] == lines[j] {
      assert out[j] == out[..p][j];
    }
    forall j | p <= j < |lines| ensures out[j + m] == lines[j] {
      assert out[j + m] == out[p + m..][j - p];
    }
  }

  /** After the edit the new entry's header is the first version header of
      the changelog, at the same position the old first header had. */
  lemma NewEntryComesFirst(lines: seq<string>, version: string, date: string, changes: string)
    ensures var out := Prepare(lines, version, date, changes);
      && InsertPos(out) == InsertPos(lines)
      && out[InsertPos(out)] == HeaderLine(version, date)
  {
    var out := Prepare(lines, version, date, changes);
    var p := InsertPos(lines);
    PrepareShiftsLines(lines, version, date, changes);
    assert out[p] == Entry(version, date, changes)[0];
    assert IsVersionHeader(out[p]);
  }

  /** The splice written out: the lines before the insert point, the
      entry, the lines from the insert point on. */
  lemma PrepareSplits(lines: seq<string>, version: string, date: string, changes: string)
    ensures var p := InsertPos(lines);
      Prepare(lines, version, date, changes)
        == lines[..p] + Entry(version, date, changes) + lines[p..]
  {
  }

  /** Two successive releases stack their entries newest first, both in
      front of the changelog's previous first header. */
  lemma NewestEntryOnTop(lines: seq<string>, v1: string, d1: string, c1: string,
                         v2: string, d2: string, c2: string)
    ensures var p := InsertPos(lines);
      Prepare(Prepare(lines, v1, d1, c1), v2, d2, c2)
        == lines[..p] + Entry(v2, d2, c2) + Entry(v1, d1, c1) + lines[p..]
  {
    var once := Prepare(lines, v1, d1, c1);
    PrepareSplits(lines, v1, d1, c1);
    NewEntryComesFirst(lines, v1, d1, c1);
    PrepareSplits(once, v2, d2, c2);
    InsertTwice(lines, InsertPos(lines), Entry(v1, d1, c1), once,
                Entry(v2, d2, c2), Prepare(once, v2, d2, c2));
  }

  /** Inserting `e1` and then `e2` at the same position puts `e2` first. */
  lemma InsertTwice(xs: seq<string>, p: nat, e1: seq<string>, once: seq<string>,
                    e2: seq<string>, twice: seq<string>)
    requires p <= |xs|
    requires once == xs[..p] + e1 + xs[p..]
    requires twice == once[..p] + e2 + once[p..]
    ensures twice == xs[..p] + e2 + e1 + xs[p..]
  {
    assert once[..p] == xs[..p];
    assert once[p..] == e1 + xs[p..];
  }
}

=== FILE: config_flow.dfy ===
/** The configuration wizard of `custom_components/juno_rb56sc/config_flow.py`.
    The device registry is a sequence of records in iteration order, the
    already configured unique ids are a set, and every step is a function
    from the flow's state and the user's input to the next state and the
    step's outcome. */
module ConfigFlow {
  import opened Wrappers
  import opened Text
  import opened Registry

  const ConfDevice := "device"
  const DefaultTitle := "Juno RB56SC Light"
  const NoDevicesFound := "no_devices_found"
  const AlreadyConfigured := "already_configured"

  /** What a flow step hands back to the host. */
  datatype FlowResult =
    | Abort(reason: string)
    | ShowForm(stepId: string, choices: map<string, string>, errors: map<string, string>)
    | CreateEntry(title: string, data: map<string, string>)
    | KeyError(key: string)  // `user_input[CONF_DEVICE]` on input without that key

  /** The state the user flow keeps between steps: the chosen device id
      (which is also the flow's unique id) and the candidates last listed. */
  datatype UserFlow = UserFlow(deviceId: Option<string>, devices: map<string, string>)

  const InitialFlow := UserFlow(None, map[])

  datatype Step = Step(flow: UserFlow, result: FlowResult)

  // ---------------------------------------------------------------------------
  // Candidate devices
  // ---------------------------------------------------------------------------

  /** The candidate test: a manufacturer is set and contains "juno" in any
      letter case. */
  predicate IsJuno(d: Device) {
    Truthy(d.manufacturer) && Contains(Lower(d.manufacturer.value), Lower(Manufacturer))
  }

  /** `f"{device.name or device.model} ({device.manufacturer})"`. */
  function Label(d: Device): string {
    Show(Or(d.name, d.model)) + " (" + Show(d.manufacturer) + ")"
  }

  /** The candidate test, stated without the scanning function: the
      lower-cased manufacturer has "juno" at some offset. */
  lemma IsJunoIff(d: Device)
    ensures IsJuno(d) <==>
      && d.manufacturer.Some? && d.manufacturer.value != ""
      && exists i :: OccursAt(Lower(d.manufacturer.value), "juno", i)
  {
    assert Lower(Manufacturer) == "juno";
    if d.manufacturer.Some? {
      ContainsIffOccurs(Lower(d.manufacturer.value), "juno");
    }
  }

  /** Registry entry `i` is a candidate and no later candidate has its id,
      so its label is the one left in the dictionary. */
  predicate IsLastCandidate(registry: seq<Device>, i: int)
    requires 0 <= i < |registry|
  {
    && IsJuno(registry[i])
    && forall j :: i < j < |registry| && registry[j].id == registry[i].id ==> !IsJuno(registry[j])
  }

  /** The ids of all candidates in the registry. */
  function CandidateIds(registry: seq<Device>): set<string> {
    set i | 0 <= i < |registry| && IsJuno(registry[i]) :: registry[i].id
  }

  lemma CandidateIdsSnoc(registry: seq<Device>)
    requires |registry| > 0
    ensures var init := registry[..|registry| - 1]; var d := registry[|registry| - 1];
      CandidateIds(registry) == CandidateIds(init) + (if IsJuno(d) then {d.id} else {})
  {
    var init := registry[..|registry| - 1];
    var d := registry[|registry| - 1];
    forall x | x in CandidateIds(registry)
      ensures x in CandidateIds(init) + (if IsJuno(d) then {d.id} else {})
    {
      var i :| 0 <= i < |registry| && IsJuno(registry[i]) && registry[i].id == x;
      if i < |init| {
        assert init[i] == registry[i];
      }
    }
    forall x | x in CandidateIds(init) ensures x in CandidateIds(registry) {
      var i :| 0 <= i < |init| && IsJuno(init[i]) && init[i].id == x;
      assert registry[i] == init[i];
    }
  }

  /** Adding one registry entry at the end: the labels of the last
      candidates of the prefix survive unless the new entry is a candidate
      with the same id, in which case its own label replaces them. */
  lemma AppendKeepsLastLabels(registry: seq<Device>, before: map<string, string>)
    requires |registry| > 0
    requires var init := registry[..|registry| - 1];
      forall i :: 0 <= i < |init| && IsLastCandidate(init, i) ==>
        init[i].id in before && before[init[i].id] == Label(init[i])
    ensures var d := registry[|registry| - 1];
      var devices := if IsJuno(d) then before[d.id := Label(d)] else before;
      forall i :: 0 <= i < |registry| && IsLastCandidate(registry, i) ==>
        registry[i].id in devices && devices[registry[i].id] == Label(registry[i])
  {
    var init := registry[..|registry| - 1];
    var d := registry[|registry| - 1];
    var devices := if IsJuno(d) then before[d.id := Label(d)] else before;
    forall i | 0 <= i < |registry| && IsLastCandidate(registry, i)
      ensures registry[i].id in devices && devices[registry[i].id] == Label(registry[i])
    {
      if i < |init| {
        assert init[i] == registry[i];
        assert IsLastCandidate(init, i) by {
          forall j | i < j < |init| && init[j].id == init[i].id ensures !IsJuno(init[j]) {
            assert init[j] == registry[j];
          }
        }
        assert IsJuno(d) ==> d.id != registry[i].id;
      }
    }
  }

  /** `_get_juno_devices`: candidate ids mapped to their labels, filled in
      registry order so that a later entry with the same id wins. */
  function JunoDevices(registry: seq<Device>): (devices: map<string, string>)
    ensures devices.Keys == CandidateIds(registry)
    ensures forall i :: 0 <= i < |registry| && IsLastCandidate(registry, i) ==>
              registry[i].id in devices && devices[registry[i].id] == Label(registry[i])
    decreases |registry|
  {
    if |registry| == 0 then map[]
    else
      var init := registry[..|registry| - 1];
      var d := registry[|registry| - 1];
      var before := JunoDevices(init);
      CandidateIdsSnoc(registry);
      AppendKeepsLastLabels(registry, before);
      if IsJuno(d) then before[d.id := Label(d)] else before
  }

  /** With the ids distinct, as they are in the host's registry, every
      candidate appears under its own id with its own label. */
  lemma CandidatesOfDistinctDevices(registry: seq<Device>)
    requires forall i, j :: 0 <= i < j < |registry| ==> registry[i].id != registry[j].id
    ensures forall i :: 0 <= i < |registry| && IsJuno(registry[i]) ==>
              JunoDevices(registry)[registry[i].id] == Label(registry[i])
  {
    forall i | 0 <= i < |registry| && IsJuno(registry[i])
      ensures IsLastCandidate(registry, i)
    {
    }
  }

  // ---------------------------------------------------------------------------
  // Steps
  // ---------------------------------------------------------------------------

  /** `async_step_user`. Without input it lists the candidates and aborts
      when there are none, else shows the selection form over them. With
      input it records the chosen id as the flow's unique id, aborts when an
      entry with that id already exists, and otherwise creates the entry.
      Already configured devices are not left out of the form; they are
      only rejected on submission. */
  function StepUser(flow: UserFlow, registry: seq<Device>, configured: set<string>,
                    input: Option<map<string, string>>): (s: Step)
    ensures input.None? ==>
      && s.flow.devices == JunoDevices(registry)
      && s.flow.deviceId == flow.deviceId
      && (s.result.Abort? <==> s.flow.devices == map[])
      && (s.result.Abort? ==> s.result.reason == NoDevicesFound)
      && (!s.result.Abort? ==> s.result == ShowForm("user", s.flow.devices, map[]))
    ensures input.Some? && ConfDevice !in input.value ==>
      s == Step(flow, KeyError(ConfDevice))
    ensures input.Some? && ConfDevice in input.value ==>
      var id := input.value[ConfDevice];
      && s.flow == flow.(deviceId := Some(id))
      && (s.result.Abort? <==> id in configured)
      && (s.result.Abort? ==> s.result.reason == AlreadyConfigured)
      && (!s.result.Abort? ==> s.result.CreateEntry? && s.result.data == map[ConfDevice := id])
      && (s.result.CreateEntry? && id in flow.devices ==> s.result.title == flow.devices[id])
      && (s.result.CreateEntry? && id !in flow.devices ==> s.result.title == DefaultTitle)
  {
    match input
    case Some(userInput) =>
      if ConfDevice !in userInput then Step(flow, KeyError(ConfDevice))
      else
        var id := userInput[ConfDevice];
        var next := flow.(deviceId := Some(id));
        if id in configured then Step(next, Abort(AlreadyConfigured))
        else
          var title := if id in flow.devices then flow.devices[id] else DefaultTitle;
          Step(next, CreateEntry(title, map[ConfDevice := id]))
    case None =>
      var devices := JunoDevices(registry);
      var next := flow.(devices := devices);
      if devices == map[] then Step(next, Abort(NoDevicesFound))
      else Step(next, ShowForm("user", devices, map[]))
  }

  /** The two-step wizard: list the candidates, then submit one of them that
      is not configured yet; the entry is titled with that device's label.
      A candidate that is configured is offered all the same and rejected
      only on submission. */
  lemma FormThenSubmit(registry: seq<Device>, configured: set<string>, i: nat)
    requires i < |registry| && IsLastCandidate(registry, i)
    ensures var form := StepUser(InitialFlow, registry, configured, None);
      var id := registry[i].id;
      var done := StepUser(form.flow, registry, configured, Some(map[ConfDevice := id]));
      && form.result.ShowForm? && id in form.result.choices
      && (id !in configured ==> done.result == CreateEntry(Label(registry[i]), map[ConfDevice := id]))
      && (id in configured ==> done.result == Abort(AlreadyConfigured))
  {
    var devices := JunoDevices(registry);
    assert registry[i].id in devices;
  }

  /** `JunoRB56SCOptionsFlow.async_step_init`: submitted options become the
      entry's data unchanged; without input an empty form is shown. */
  function StepInit(input: Option<map<string, string>>): (r: FlowResult)
    ensures input.Some? <==> r.CreateEntry?
    ensures input.Some? ==> r.title == "" && r.data == input.value
    ensures input.None? ==> r == ShowForm("init", map[], map[])
  {
    match input
    case Some(options) => CreateEntry("", options)
    case None => ShowForm("init", map[], map[])
  }

  // ---------------------------------------------------------------------------
  // Config entries
  // ---------------------------------------------------------------------------

  /** A stored config entry of this integration. */
  datatype ConfigEntry = ConfigEntry(uniqueId: string, title: string, data: map<string, string>)

  function ConfiguredIds(entries: seq<ConfigEntry>): set<string> {
    set k | 0 <= k < |entries| :: entries[k].uniqueId
  }

  /** The host stores the entry a step creates under the flow's unique id. */
  function Commit(entries: seq<ConfigEntry>, s: Step): seq<ConfigEntry> {
    match s.result
    case CreateEntry(title, data) =>
      if s.flow.deviceId.Some? then entries + [ConfigEntry(s.flow.deviceId.value, title, data)]
      else entries
    case _ => entries
  }

  /** No two entries share a device id, and each entry's data names the
      device its unique id names. */
  predicate WellFormed(entries: seq<ConfigEntry>) {
    && (forall i, j :: 0 <= i < j < |entries| ==> entries[i].uniqueId != entries[j].uniqueId)
    && (forall i :: 0 <= i < |entries| ==> entries[i].data == map[ConfDevice := entries[i].uniqueId])
  }

  /** Submitting a device, checked against the ids already stored, keeps
      the stored entries well formed and leaves that device configured. */
  lemma SubmitKeepsEntriesUnique(entries: seq<ConfigEntry>, flow: UserFlow, registry: seq<Device>,
                                 id: string)
    requires WellFormed(entries)
    ensures var s := StepUser(flow, registry, ConfiguredIds(entries), Some(map[ConfDevice := id]));
      && WellFormed(Commit(entries, s))
      && ConfiguredIds(Commit(entries, s)) == ConfiguredIds(entries) + {id}
  {
    var s := StepUser(flow, registry, ConfiguredIds(entries), Some(map[ConfDevice := id]));
    var after := Commit(entries, s);
    if id in ConfiguredIds(entries) {
      assert after == entries;
    } else {
      assert after == entries + [ConfigEntry(id, s.result.title, map[ConfDevice := id])];
      forall i | 0 <= i < |entries| ensures entries[i].uniqueId != id {
        assert entries[i].uniqueId in ConfiguredIds(entries);
      }
      assert ConfiguredIds(after) == ConfiguredIds(entries) + {id} by {
        forall x | x in ConfiguredIds(after) ensures x in ConfiguredIds(entries) + {id} {
          var k :| 0 <= k < |after| && after[k].uniqueId == x;
          if k < |entries| {
            assert entries[k].uniqueId == x;
          }
        }
        forall x | x in ConfiguredIds(entries) ensures x in ConfiguredIds(after) {
          var k :| 0 <= k < |entries| && entries[k].uniqueId == x;
          assert after[k].uniqueId == x;
        }
        assert after[|entries|].uniqueId == id;
      }
    }
  }

  /** A run of user flows, one per submitted device id, each checked against
      the entries stored so far. */
  function SubmitAll(entries: seq<ConfigEntry>, registry: seq<Device>, ids: seq<string>): seq<ConfigEntry>
    decreases |ids|
  {
    if |ids| == 0 then entries
    else
      var s := StepUser(InitialFlow, registry, ConfiguredIds(entries), Some(map[ConfDevice := ids[0]]));
      SubmitAll(Commit(entries, s), registry, ids[1..])
  }

  /** However many devices are submitted, and in whatever order, no two
      stored entries share a device id, and every submitted id is
      configured afterwards. */
  lemma {:induction false} SubmitAllKeepsEntriesUnique(entries: seq<ConfigEntry>, registry: seq<Device>,
                                                      ids: seq<string>)
    requires WellFormed(entries)
    ensures WellFormed(SubmitAll(entries, registry, ids))
    ensures ConfiguredIds(SubmitAll(entries, registry, ids))
              == ConfiguredIds(entries) + set k | 0 <= k < |ids| :: ids[k]
    decreases |ids|
  {
    if |ids| > 0 {
      var s := StepUser(InitialFlow, registry, ConfiguredIds(entries), Some(map[ConfDevice := ids[0]]));
      SubmitKeepsEntriesUnique(entries, InitialFlow, registry, ids[0]);
      SubmitAllKeepsEntriesUnique(Commit(entries, s), registry, ids[1..]);
      var all := set k | 0 <= k < |ids| :: ids[k];
      var rest := set k | 0 <= k < |ids[1..]| :: ids[1..][k];
      assert all == {ids[0]} + rest by {
        forall x | x in all ensures x in {ids[0]} + rest {
          var k :| 0 <= k < |ids| && ids[k] == x;
          if k > 0 {
            assert ids[1..][k - 1] == x;
          }
        }
        forall x | x in rest ensures x in all {
          var k :| 0 <= k < |ids[1..]| && ids[1..][k] == x;
          assert ids[k + 1] == x;
        }
      }
    }
  }
}

=== FILE: proxy_light.dfy ===
/** The proxy light of `custom_components/juno_rb56sc/light.py`. The proxy
    caches an on/off flag and a brightness and forwards every switch
    command to the ZHA light entity it wraps. The host's service bus is
    modelled as the list of service calls the proxy has issued, and the
    upstream entity's state as an optional record passed in. */
module ProxyLight {
  import opened Wrappers
  import opened Registry
  import opened Search

  const FullBrightness := 255
  const UniqueIdSuffix := "_juno_light"

  /** An entity registry entry attached to the device. */
  datatype EntityEntry = EntityEntry(entityId: string, domain: string, platform: string)

  /** The device card shown for the proxy. */
  datatype DeviceInfo = DeviceInfo(
    name: Option<string>,
    manufacturer: string,
    model: string,
    swVersion: Option<string>
  )

  /** One call of `hass.services.async_call("light", service, data)`;
      `brightness` is present exactly when the data carries it. */
  datatype ServiceCall = ServiceCall(domain: string, service: string, entityId: string,
                                     brightness: Option<int>)

  /** The upstream brightness attribute: missing, present but `None`
      (as a switched-off light reports it), or a number. */
  datatype Attribute = Missing | Null | Value(level: int)

  /** The part of the upstream ZHA entity's state the proxy reads. */
  datatype UpstreamState = UpstreamState(state: string, brightness: Attribute)

  /** The proxy entity. `brightness` is `None` when the upstream attribute
      was copied as `None`. */
  datatype Light = Light(
    uniqueId: string,
    zhaEntityId: string,
    info: DeviceInfo,
    isOn: bool,
    brightness: Option<int>,
    calls: seq<ServiceCall>
  )

  // ---------------------------------------------------------------------------
  // Setup
  // ---------------------------------------------------------------------------

  predicate IsZhaLight(e: EntityEntry) {
    e.domain == "light" && e.platform == "zha"
  }

  /** `JunoRB56SCLight.__init__`. */
  function NewLight(device: Device, zhaEntityId: string): (l: Light)
    ensures !l.isOn && l.brightness == Some(FullBrightness) && l.calls == []
    ensures l.zhaEntityId == zhaEntityId
    ensures l.uniqueId == device.id + UniqueIdSuffix
    ensures l.info.manufacturer == (if Truthy(device.manufacturer) then device.manufacturer.value else Manufacturer)
    ensures l.info.model == (if Truthy(device.model) then device.model.value else Model)
    ensures l.info.name == device.name && l.info.swVersion == device.swVersion
  {
    var info := DeviceInfo(device.name, OrDefault(device.manufacturer, Manufacturer),
                           OrDefault(device.model, Model), device.swVersion);
    Light(device.id + UniqueIdSuffix, zhaEntityId, info, false, Some(FullBrightness), [])
  }

  /** `async_setup_entry` of the light platform. `device` is the registry
      lookup of the entry's device id and `entities` the entity entries the
      host lists for that device. No proxy is created when the device is
      missing, when none of its entities is a ZHA light, or when the first
      one found has an empty entity id. */
  function SetupEntry(device: Option<Device>, entities: seq<EntityEntry>): (r: Option<Light>)
    ensures r.Some? <==>
      && device.Some?
      && FirstFrom(entities, IsZhaLight, 0).Some?
      && entities[FirstFrom(entities, IsZhaLight, 0).value].entityId != ""
    ensures r.Some? ==>
      var i := FirstFrom(entities, IsZhaLight, 0).value;
      && IsZhaLight(entities[i])
      && (forall j :: 0 <= j < i ==> !IsZhaLight(entities[j]))
      && r.value == NewLight(device.value, entities[i].entityId)
  {
    if device.None? then None
    else
      match FirstFrom(entities, IsZhaLight, 0)
      case None => None
      case Some(i) =>
        if entities[i].entityId != "" then Some(NewLight(device.value, entities[i].entityId))
        else None
  }

  /** Proxies of different devices get different unique ids. */
  lemma UniqueIdsDiffer(d1: Device, d2: Device, z1: string, z2: string)
    requires d1.id != d2.id
    ensures NewLight(d1, z1).uniqueId != NewLight(d2, z2).uniqueId
  {
    var u1 := NewLight(d1, z1).uniqueId;
    assert u1[..|d1.id|] == d1.id;
  }

  // ---------------------------------------------------------------------------
  // Transitions
  // ---------------------------------------------------------------------------

  /** `_sync_from_zha`: copy the upstream on/off state and brightness
      (255 when the attribute is missing); without an upstream state
      nothing changes. */
  function Sync(l: Light, upstream: Option<UpstreamState>): (r: Light)
    ensures upstream.None? ==> r == l
    ensures upstream.Some? ==>
      && r.isOn == (upstream.value.state == "on")
      && r.brightness == (match upstream.value.brightness
                          case Missing => Some(FullBrightness)
                          case Null => None
                          case Value(level) => Some(level))
      && r == l.(isOn := r.isOn, brightness := r.brightness)
  {
    match upstream
    case None => l
    case Some(u) =>
      var brightness := match u.brightness
        case Missing => Some(FullBrightness)
        case Null => None
        case Value(level) => Some(level);
      l.(isOn := u.state == "on", brightness := brightness)
  }

  /** `async_turn_on`: one `light.turn_on` call to the ZHA entity, carrying
      the brightness exactly when one is given. A given brightness is
      cached before the call is made; the light is marked on only once the
      call returns, so a call that raises (`succeeds` false) leaves `isOn`
      as it was. */
  function TurnOn(l: Light, brightness: Option<int>, succeeds: bool): (r: Light)
    ensures r.calls == l.calls + [ServiceCall("light", "turn_on", l.zhaEntityId, brightness)]
    ensures r.isOn == (succeeds || l.isOn)
    ensures r.brightness == (if brightness.Some? then brightness else l.brightness)
    ensures r.uniqueId == l.uniqueId && r.zhaEntityId == l.zhaEntityId && r.info == l.info
  {
    var call := ServiceCall("light", "turn_on", l.zhaEntityId, brightness);
    var cached := if brightness.Some? then l.(brightness := brightness) else l;
    var issued := cached.(calls := l.calls + [call]);
    if succeeds then issued.(isOn := true) else issued
  }

  /** `async_turn_off`: one `light.turn_off` call to the ZHA entity; the
      light is marked off once the call returns and brightness is kept. */
  function TurnOff(l: Light, succeeds: bool): (r: Light)
    ensures r.calls == l.calls + [ServiceCall("light", "turn_off", l.zhaEntityId, None)]
    ensures r.isOn == (!succeeds && l.isOn)
    ensures r.brightness == l.brightness
    ensures r.uniqueId == l.uniqueId && r.zhaEntityId == l.zhaEntityId && r.info == l.info
  {
    var issued := l.(calls := l.calls + [ServiceCall("light", "turn_off", l.zhaEntityId, None)]);
    if succeeds then issued.(isOn := false) else issued
  }

  // ---------------------------------------------------------------------------
  // Runs of commands
  // ---------------------------------------------------------------------------

  /** What the host can ask of the proxy: switch it on or off (the flag says
      whether the forwarded call returns normally), or refresh it from the
      upstream entity (on `async_added_to_hass` and `async_update`). */
  datatype Command =
    | On(brightness: Option<int>, succeeds: bool)
    | Off(succeeds: bool)
    | Update(upstream: Option<UpstreamState>)

  function Apply(l: Light, c: Command): Light {
    match c
    case On(b, ok) => TurnOn(l, b, ok)
    case Off(ok) => TurnOff(l, ok)
    case Update(u) => Sync(l, u)
  }

  function Run(l: Light, cmds: seq<Command>): Light
    decreases |cmds|
  {
    if |cmds| == 0 then l else Run(Apply(l, cmds[0]), cmds[1..])
  }

  /** Number of switch commands, each of which issues one service call. */
  function Switches(cmds: seq<Command>): nat
    decreases |cmds|
  {
    if |cmds| == 0 then 0 else (if cmds[0].Update? then 0 else 1) + Switches(cmds[1..])
  }

  /** Every issued call is a `light` domain call to the wrapped entity. */
  predicate CallsTargetUpstream(l: Light) {
    forall k :: 0 <= k < |l.calls| ==>
      l.calls[k].domain == "light" && l.calls[k].entityId == l.zhaEntityId
      && l.calls[k].service in {"turn_on", "turn_off"}
  }

  /** Over any run of commands the call log only grows, by exactly one call
      per switch command, every call goes to the wrapped ZHA entity, and
      the proxy's identity never changes. */
  lemma {:induction false} RunKeepsCallLog(l: Light, cmds: seq<Command>)
    requires CallsTargetUpstream(l)
    ensures var r := Run(l, cmds);
      && CallsTargetUpstream(r)
      && l.calls <= r.calls
      && |r.calls| == |l.calls| + Switches(cmds)
      && r.uniqueId == l.uniqueId && r.zhaEntityId == l.zhaEntityId && r.info == l.info
    decreases |cmds|
  {
    if |cmds| > 0 {
      var next := Apply(l, cmds[0]);
      assert CallsTargetUpstream(next);
      RunKeepsCallLog(next, cmds[1..]);
    }
  }

  /** A freshly set up proxy has issued no calls, so the log invariant holds
      for every proxy the platform creates, whatever it is asked next. */
  lemma SetupThenRun(device: Option<Device>, entities: seq<EntityEntry>, cmds: seq<Command>)
    requires SetupEntry(device, entities).Some?
    ensures var l := SetupEntry(device, entities).value;
      && CallsTargetUpstream(Run(l, cmds))
      && |Run(l, cmds).calls| == Switches(cmds)
  {
    RunKeepsCallLog(SetupEntry(device, entities).value, cmds);
  }

  /** When every forwarded call returns normally and no refresh comes in
      between, the proxy reports on exactly when the last switch command
      was a turn-on. */
  lemma {:induction false} LastSwitchWins(l: Light, cmds: seq<Command>)
    requires |cmds| > 0
    requires forall k :: 0 <= k < |cmds| ==> !cmds[k].Update? && cmds[k].succeeds
    ensures Run(l, cmds).isOn == cmds[|cmds| - 1].On?
    decreases |cmds|
  {
    if |cmds| > 1 {
      LastSwitchWins(Apply(l, cmds[0]), cmds[1..]);
      assert cmds[1..][|cmds| - 2] == cmds[|cmds| - 1];
    }
  }

  /** Refreshing twice from the same upstream state is the same as once. */
  lemma SyncIdempotent(l: Light, upstream: Option<UpstreamState>)
    ensures Sync(Sync(l, upstream), upstream) == Sync(l, upstream)
  {
  }

  /** A refresh overrides whatever the last switch command cached: the
      cached state then depends only on the upstream state. */
  lemma SyncOverridesSwitches(l: Light, cmds: seq<Command>, u: UpstreamState)
    ensures var a := Sync(Run(l, cmds), Some(u)); var b := Sync(l, Some(u));
      a.isOn == b.isOn && a.brightness == b.brightness
  {
  }
}

=== FILE: readme.dfy ===
/** `update_readme` of `scripts/bump_version.py` as a string rewrite.
    The regular expression `Current version: \*\*[\d.]+\*\*` is matched by
    hand: the literal text `Current version: **`, one or more digits or
    dots, and `**`. As with `re.sub`, every non-overlapping match is
    replaced, scanning from the left. */
module Readme {
  import opened Wrappers
  import opened Text

  const MarkerPrefix := "Current version: **"
  const MarkerSuffix := "**"

  /** The characters of the class `[\d.]`. */
  predicate IsVersionChar(c: char) {
    IsDigit(c) || c == '.'
  }

  predicate IsVersionText(v: string) {
    |v| >= 1 && forall j :: 0 <= j < |v| ==> IsVersionChar(v[j])
  }

  /** `f"Current version: **{new_version}**"`, the replacement text. */
  function Marker(version: string): string {
    MarkerPrefix + version + MarkerSuffix
  }

  /** The pattern matches at the start of `s` with a run of `k` version
      characters between the two literal parts. */
  predicate MatchesWithRun(s: string, k: int) {
    && k >= 1
    && |MarkerPrefix| + k + 2 <= |s|
    && s[..|MarkerPrefix|] == MarkerPrefix
    && (forall j :: |MarkerPrefix| <= j < |MarkerPrefix| + k ==> IsVersionChar(s[j]))
    && s[|MarkerPrefix| + k..|MarkerPrefix| + k + 2] == MarkerSuffix
  }

  /** Length of the longest run of version characters at the start of `s`. */
  function RunLength(s: string): (k: nat)
    ensures k <= |s|
    ensures forall j :: 0 <= j < k ==> IsVersionChar(s[j])
    ensures k < |s| ==> !IsVersionChar(s[k])
    decreases |s|
  {
    if |s| > 0 && IsVersionChar(s[0]) then 1 + RunLength(s[1..]) else 0
  }

  /** The length of the pattern's match at the start of `s`, if it matches
      there: the literal prefix, the greedy run of version characters, and
      the literal suffix. `MatchAtFindsEveryRun` shows that the greedy run
      is the only one that can be followed by `**`, so the match is unique
      and none is missed. */
  function MatchAt(s: string): (r: Option<nat>)
    ensures r.Some? ==> |MarkerPrefix| + 3 <= r.value <= |s|
    ensures r.Some? ==> MatchesWithRun(s, r.value - |MarkerPrefix| - 2)
  {
    var p := |MarkerPrefix|;
    if MarkerPrefix <= s then
      var k := RunLength(s[p..]);
      if k >= 1 && MarkerSuffix <= s[p + k..] then
        GreedyRunMatches(s, k);
        Some(p + k + 2)
      else None
    else None
  }

  /** The greedy run, when followed by `**`, is a match of the pattern. */
  lemma GreedyRunMatches(s: string, k: nat)
    requires MarkerPrefix <= s && k == RunLength(s[|MarkerPrefix|..])
    requires k >= 1 && MarkerSuffix <= s[|MarkerPrefix| + k..]
    ensures MatchesWithRun(s, k)
  {
    var p := |MarkerPrefix|;
    forall j | p <= j < p + k ensures IsVersionChar(s[j]) {
      assert s[j] == s[p..][j - p];
    }
    TakeOfDrop(s, p + k, 2);
  }

  /** Every way the pattern can match at the start of `s` is the one
      `MatchAt` finds. */
  lemma MatchAtFindsEveryRun(s: string, k: int)
    requires MatchesWithRun(s, k)
    ensures MatchAt(s) == Some(|MarkerPrefix| + k + 2)
  {
    var p := |MarkerPrefix|;
    var t := s[p..];
    assert MarkerPrefix <= s;
    forall j | 0 <= j < k ensures IsVersionChar(t[j]) {
      assert t[j] == s[p + j];
    }
    assert t[k] == s[p + k] == '*';
    var m := RunLength(t);
    assert m == k;
    TakeOfDrop(s, p + k, 2);
  }

  lemma TakeOfDrop(s: string, a: nat, b: nat)
    requires a + b <= |s|
    ensures s[a..][..b] == s[a..a + b]
  {
  }

  /** `re.search(pattern, content)`: the pattern matches somewhere. */
  predicate HasMarker(s: string)
    decreases |s|
  {
    MatchAt(s).Some? || (|s| > 0 && HasMarker(s[1..]))
  }

  /** `re.sub(pattern, repl, s)`: left to right, each match is replaced
      and scanning resumes after it; other characters are copied. */
  function ReplaceAll(s: string, repl: string): string
    decreases |s|
  {
    if |s| == 0 then ""
    else match MatchAt(s)
      case Some(n) => repl + ReplaceAll(s[n..], repl)
      case None => [s[0]] + ReplaceAll(s[1..], repl)
  }

  /** The leftmost match of the pattern in `s` starts at offset `i` and
      covers `n` characters. */
  predicate LeftmostMatch(s: string, i: int, n: nat) {
    && 0 <= i <= |s|
    && MatchAt(s[i..]) == Some(n)
    && forall j {:trigger MatchAt(s[j..])} :: 0 <= j < i ==> MatchAt(s[j..]).None?
  }

  /** `re.findall(pattern, s)`: the matched texts, found by the same
      left-to-right scan as `re.sub`. */
  function Findall(s: string): seq<string>
    decreases |s|
  {
    if |s| == 0 then []
    else match MatchAt(s)
      case Some(n) => [s[..n]] + Findall(s[n..])
      case None => Findall(s[1..])
  }

  /** `update_readme`: the rewritten text, or `None` when the version line
      is missing (the script warns and leaves the file as it was). A
      rewritten text shows the new version line; for a dotted-number
      version, every version line in it is the new one, and there are as
      many as the original had, so no old version survives. */
  function UpdateReadme(content: string, version: string): (r: Option<string>)
    ensures r.None? <==> !HasMarker(content)
    ensures r.Some? ==> exists i: int, n: nat :: LeftmostMatch(content, i, n)
    ensures forall i: int, n: nat :: LeftmostMatch(content, i, n) ==>
      r == Some(content[..i] + Marker(version) + ReplaceAll(content[i + n..], Marker(version)))
    ensures forall i: int, n: nat :: LeftmostMatch(content, i, n) && !HasMarker(content[i + n..]) ==>
      r == Some(content[..i] + Marker(version) + content[i + n..])
    ensures r.Some? ==> exists i :: OccursAt(r.value, Marker(version), i)
    ensures r.Some? && IsVersionText(version) ==>
      var found := Findall(r.value);
      && |found| == |Findall(content)| > 0
      && forall j :: 0 <= j < |found| ==> found[j] == Marker(version)
  {
    ReplaceFrameAll(content, Marker(version));
    if HasMarker(content) then
      HasMarkerHasLeftmostMatch(content);
      ReplaceWritesReplacement(content, Marker(version));
      FindallIffHasMarker(content);
      ReplaceWritesVersion(content, version);
      Some(ReplaceAll(content, Marker(version)))
    else None
  }

  // ---------------------------------------------------------------------------
  // Properties of the rewrite
  // ---------------------------------------------------------------------------

  /** Text without the marker passes through the rewrite unchanged. */
  lemma {:induction false} NoMarkerUnchanged(s: string, repl: string)
    requires !HasMarker(s)
    ensures ReplaceAll(s, repl) == s
    decreases |s|
  {
    if |s| > 0 {
      NoMarkerUnchanged(s[1..], repl);
    }
  }

  /** A fresh marker line for a dotted-number version is itself a match of
      the pattern, covering the whole marker and nothing after it. */
  lemma MarkerMatches(version: string, rest: string)
    requires IsVersionText(version)
    ensures MatchAt(Marker(version) + rest) == Some(|Marker(version)|)
  {
    var s := Marker(version) + rest;
    var p := |MarkerPrefix|;
    assert s[..p] == MarkerPrefix;
    assert forall j :: p <= j < p + |version| ==> s[j] == version[j - p];
    assert s[p + |version|..p + |version| + 2] == MarkerSuffix;
    assert MatchesWithRun(s, |version|);
    MatchAtFindsEveryRun(s, |version|);
  }

  /** A match never contains a `C` after its first character. */
  lemma MatchHasNoInnerC(s: string)
    requires MatchAt(s).Some?
    ensures forall j :: 1 <= j < MatchAt(s).value ==> s[j] != 'C'
  {
    var n := MatchAt(s).value;
    var p := |MarkerPrefix|;
    var k := n - p - 2;
    assert MatchesWithRun(s, k);
    forall j | 1 <= j < n ensures s[j] != 'C' {
      if j < p {
        assert s[j] == MarkerPrefix[j];
      } else if j < p + k {
        assert IsVersionChar(s[j]);
      } else {
        assert s[j] == MarkerSuffix[j - p - k];
      }
    }
  }

  /** Whether and how far the pattern matches depends only on the matched
      text itself. */
  lemma MatchDependsOnMatchedText(s: string, t: string)
    requires MatchAt(s).Some?
    requires |t| >= MatchAt(s).value && t[..MatchAt(s).value] == s[..MatchAt(s).value]
    ensures MatchAt(t) == MatchAt(s)
  {
    var k := MatchAt(s).value - |MarkerPrefix| - 2;
    RunSurvivesSamePrefix(s, t, k);
    MatchAtFindsEveryRun(t, k);
  }

  /** A text that starts like a match of the pattern is the same match. */
  lemma RunSurvivesSamePrefix(s: string, t: string, k: int)
    requires MatchesWithRun(s, k)
    requires |t| >= |MarkerPrefix| + k + 2
    requires t[..|MarkerPrefix| + k + 2] == s[..|MarkerPrefix| + k + 2]
    ensures MatchesWithRun(t, k)
  {
    var p := |MarkerPrefix|;
    var n := p + k + 2;
    forall j | 0 <= j < n ensures t[j] == s[j] {
      assert t[j] == t[..n][j];
    }
    assert t[..p] == s[..p];
    assert t[p + k..n] == s[p + k..n];
  }

  /** Two strings that agree on their first character and up to their next
      `C` (or their end) match the pattern alike. */
  lemma MatchAgreesUpToC(s: string, t: string, k: nat)
    requires 1 <= k <= |s| && k <= |t| && s[..k] == t[..k]
    requires k == |s| || s[k] == 'C'
    requires k == |t| || t[k] == 'C'
    ensures MatchAt(s) == MatchAt(t)
  {
    if MatchAt(s).Some? {
      var n := MatchAt(s).value;
      MatchHasNoInnerC(s);
      assert n <= k;
      assert t[..n] == t[..k][..n];
      MatchDependsOnMatchedText(s, t);
    } else if MatchAt(t).Some? {
      var n := MatchAt(t).value;
      MatchHasNoInnerC(t);
      assert n <= k;
      assert s[..n] == s[..k][..n];
      MatchDependsOnMatchedText(t, s);
    }
  }

  /** Every match starts with the `C` of `Current`, so none starts elsewhere. */
  lemma NoMatchWithoutLeadingC(s: string)
    requires |s| > 0 && s[0] != 'C'
    ensures MatchAt(s).None?
  {
  }

  /** The rewrite copies everything before the first `C`, since every
      match starts with one. */
  lemma ReplaceCopiesUpToC(s: string, repl: string)
    ensures var k := IndexOf(s, 'C');
      ReplaceAll(s, repl) == s[..k] + ReplaceAll(s[k..], repl)
  {
    var k := IndexOf(s, 'C');
    forall j | 0 <= j < k ensures MatchAt(s[j..]).None? {
      NoMatchWithoutLeadingC(s[j..]);
    }
    ReplaceCopiesPrefix(s, repl, k);
  }

  /** When the replacement starts with `C`, a rewritten text starting with
      `C` still starts with `C`, and only the empty text rewrites to empty. */
  lemma ReplaceKeepsLeadingC(s: string, repl: string)
    requires |repl| > 0 && repl[0] == 'C'
    ensures |ReplaceAll(s, repl)| == 0 <==> |s| == 0
    ensures |s| > 0 && s[0] == 'C' ==> ReplaceAll(s, repl)[0] == 'C'
  {
  }

  /** A position where the original text has no match still has none after
      the rest of the text is rewritten. */
  lemma NoNewMatchBehind(s: string, version: string)
    requires |s| > 0 && MatchAt(s).None? && IsVersionText(version)
    ensures MatchAt([s[0]] + ReplaceAll(s[1..], Marker(version))).None?
  {
    var repl := Marker(version);
    var rest := s[1..];
    var k := IndexOf(rest, 'C');
    var t := [s[0]] + ReplaceAll(rest, repl);
    ReplaceCopiesUpToC(rest, repl);
    ReplaceKeepsLeadingC(rest[k..], repl);
    assert s == [s[0]] + rest;
    AgreeUpToNextC(s, rest, k, ReplaceAll(rest[k..], repl), t);
    MatchAgreesUpToC(s, t, k + 1);
  }

  /** A text `t` that keeps the first character of `s` and the rest of it
      up to the next `C`, and then goes on with a text that is empty or
      starts with `C`, agrees with `s` up to their next `C`. */
  lemma AgreeUpToNextC(s: string, rest: string, k: nat, tail: string, t: string)
    requires |s| > 0 && s == [s[0]] + rest && k <= |rest|
    requires k < |rest| ==> rest[k] == 'C'
    requires t == [s[0]] + (rest[..k] + tail)
    requires |tail| == 0 <==> |rest[k..]| == 0
    requires |rest[k..]| > 0 && rest[k..][0] == 'C' ==> tail[0] == 'C'
    ensures 1 <= k + 1 <= |s| && k + 1 <= |t| && s[..k + 1] == t[..k + 1]
    ensures k + 1 == |s| || s[k + 1] == 'C'
    ensures k + 1 == |t| || t[k + 1] == 'C'
  {
    assert t[..k + 1] == [s[0]] + rest[..k];
    assert s[..k + 1] == [s[0]] + rest[..k];
    if k < |rest| {
      assert rest[k..][0] == rest[k];
    }
  }

  /** Rewriting twice with the same dotted-number version changes nothing
      more: the markers written by the first pass are matched again, in
      the same places, and no new match appears between them. */
  lemma {:induction false} ReplaceIdempotent(s: string, version: string)
    requires IsVersionText(version)
    ensures var once := ReplaceAll(s, Marker(version));
      ReplaceAll(once, Marker(version)) == once
    decreases |s|
  {
    var repl := Marker(version);
    if |s| > 0 {
      match MatchAt(s)
      case Some(n) =>
        var rest := ReplaceAll(s[n..], repl);
        ReplaceIdempotent(s[n..], version);
        MarkerMatches(version, rest);
        assert (repl + rest)[|repl|..] == rest;
      case None =>
        var rest := ReplaceAll(s[1..], repl);
        ReplaceIdempotent(s[1..], version);
        NoNewMatchBehind(s, version);
        assert ([s[0]] + rest)[1..] == rest;
    }
  }

  /** A rewritten README still carries a version line the pattern finds. */
  lemma {:induction false} ReplaceKeepsMarker(s: string, version: string)
    requires IsVersionText(version) && HasMarker(s)
    ensures HasMarker(ReplaceAll(s, Marker(version)))
    decreases |s|
  {
    var repl := Marker(version);
    match MatchAt(s)
    case Some(n) =>
      MarkerMatches(version, ReplaceAll(s[n..], repl));
    case None =>
      ReplaceKeepsMarker(s[1..], version);
      var t := ReplaceAll(s, repl);
      assert t[1..] == ReplaceAll(s[1..], repl);
  }

  /** A match at any offset is found by `re.search`. */
  lemma {:induction false} MatchAtOffsetIsFound(s: string, i: nat)
    requires i <= |s| && MatchAt(s[i..]).Some?
    ensures HasMarker(s)
    decreases i
  {
    if i == 0 {
      assert s[0..] == s;
    } else {
      assert s[1..][i - 1..] == s[i..];
      MatchAtOffsetIsFound(s[1..], i - 1);
    }
  }

  /** Where no match starts, the rewrite copies one character and goes on. */
  lemma ReplaceStep(s: string, repl: string)
    requires |s| > 0 && MatchAt(s).None?
    ensures ReplaceAll(s, repl) == [s[0]] + ReplaceAll(s[1..], repl)
  {
  }

  /** One more character of the copied prefix: when no match starts at
      offset `i - 1`, the copied prefix grows by that character. */
  lemma ReplaceCopiesOneMore(s: string, repl: string, i: nat)
    requires 0 < i <= |s| && MatchAt(s[i - 1..]).None?
    requires ReplaceAll(s, repl) == s[..i - 1] + ReplaceAll(s[i - 1..], repl)
    ensures ReplaceAll(s, repl) == s[..i] + ReplaceAll(s[i..], repl)
  {
    var t := s[i - 1..];
    assert t[0] == s[i - 1] && t[1..] == s[i..];
    ReplaceStep(t, repl);
    PrefixGrows(s, i, ReplaceAll(s[i..], repl), ReplaceAll(t, repl));
  }

  /** Moving one character from the rest of a text onto its prefix. */
  lemma PrefixGrows(s: string, i: nat, rest: string, r: string)
    requires 0 < i <= |s| && r == [s[i - 1]] + rest
    ensures s[..i - 1] + r == s[..i] + rest
  {
    assert s[..i] == s[..i - 1] + [s[i - 1]];
  }

  /** Where no match starts before offset `i`, the rewrite copies the first
      `i` characters unchanged. */
  lemma {:induction false} ReplaceCopiesPrefix(s: string, repl: string, i: nat)
    requires i <= |s|
    requires forall j {:trigger MatchAt(s[j..])} :: 0 <= j < i ==> MatchAt(s[j..]).None?
    ensures ReplaceAll(s, repl) == s[..i] + ReplaceAll(s[i..], repl)
    decreases i
  {
    if i == 0 {
      CopiesNothing(s, ReplaceAll(s, repl));
    } else {
      assert MatchAt(s[i - 1..]).None?;
      ReplaceCopiesPrefix(s, repl, i - 1);
      ReplaceCopiesOneMore(s, repl, i);
    }
  }

  lemma CopiesNothing(s: string, r: string)
    ensures r == s[..0] + r && s[0..] == s
  {
  }

  /** The rewrite keeps the text before the leftmost match, replaces that
      match, and goes on after it: only matched text is ever changed. */
  lemma ReplaceFrame(s: string, repl: string, i: nat, n: nat)
    requires LeftmostMatch(s, i, n)
    ensures ReplaceAll(s, repl) == s[..i] + repl + ReplaceAll(s[i + n..], repl)
  {
    ReplaceCopiesPrefix(s, repl, i);
    ReplaceMatchStep(s, repl, i, n);
    Splice(ReplaceAll(s, repl), s[..i], ReplaceAll(s[i..], repl), repl, ReplaceAll(s[i + n..], repl));
  }

  /** Where a match starts, the rewrite writes the replacement and goes on
      after the match. */
  lemma ReplaceMatchStep(s: string, repl: string, i: nat, n: nat)
    requires i <= |s| && MatchAt(s[i..]) == Some(n)
    ensures ReplaceAll(s[i..], repl) == repl + ReplaceAll(s[i + n..], repl)
  {
    assert s[i..][n..] == s[i + n..];
  }

  lemma Splice(x: string, a: string, y: string, b: string, c: string)
    requires x == a + y && y == b + c
    ensures x == a + b + c
  {
  }

  /** The rewrite at the leftmost match when nothing matches after it: the
      rest of the text is kept as is. */
  lemma ReplaceFrameLast(s: string, repl: string, i: nat, n: nat)
    requires LeftmostMatch(s, i, n) && !HasMarker(s[i + n..])
    ensures ReplaceAll(s, repl) == s[..i] + repl + s[i + n..]
  {
    ReplaceFrame(s, repl, i, n);
    NoMarkerUnchanged(s[i + n..], repl);
  }

  /** `ReplaceFrame` and `ReplaceFrameLast` for every leftmost match, with
      `re.search` finding it. */
  lemma ReplaceFrameAll(s: string, repl: string)
    ensures forall i: int, n: nat :: LeftmostMatch(s, i, n) ==>
      && HasMarker(s)
      && ReplaceAll(s, repl) == s[..i] + repl + ReplaceAll(s[i + n..], repl)
    ensures forall i: int, n: nat :: LeftmostMatch(s, i, n) && !HasMarker(s[i + n..]) ==>
      ReplaceAll(s, repl) == s[..i] + repl + s[i + n..]
  {
    forall i: int, n: nat | LeftmostMatch(s, i, n)
      ensures HasMarker(s)
      ensures ReplaceAll(s, repl) == s[..i] + repl + ReplaceAll(s[i + n..], repl)
    {
      MatchAtOffsetIsFound(s, i);
      ReplaceFrame(s, repl, i, n);
    }
    forall i: int, n: nat | LeftmostMatch(s, i, n) && !HasMarker(s[i + n..])
      ensures ReplaceAll(s, repl) == s[..i] + repl + s[i + n..]
    {
      ReplaceFrameLast(s, repl, i, n);
    }
  }

  /** Whenever `re.search` succeeds there is a leftmost match. */
  lemma {:induction false} HasMarkerHasLeftmostMatch(s: string)
    requires HasMarker(s)
    ensures exists i: int, n: nat :: LeftmostMatch(s, i, n)
    decreases |s|
  {
    if MatchAt(s).Some? {
      assert s[0..] == s;
      assert LeftmostMatch(s, 0, MatchAt(s).value);
    } else {
      HasMarkerHasLeftmostMatch(s[1..]);
      var i, n :| LeftmostMatch(s[1..], i, n);
      LeftmostMatchShifts(s, i, n);
    }
  }

  /** A leftmost match of `s[1..]` is one of `s` when nothing matches at the
      start of `s`. */
  lemma LeftmostMatchShifts(s: string, i: nat, n: nat)
    requires |s| > 0 && MatchAt(s).None? && LeftmostMatch(s[1..], i, n)
    ensures LeftmostMatch(s, i + 1, n)
  {
    assert s[1..][i..] == s[i + 1..];
    forall j | 0 <= j < i + 1 ensures MatchAt(s[j..]).None? {
      if j == 0 {
        assert s[0..] == s;
      } else {
        assert s[1..][j - 1..] == s[j..];
      }
    }
  }

  /** The scan finds a match exactly when `re.search` does. */
  lemma {:induction false} FindallIffHasMarker(s: string)
    ensures |Findall(s)| > 0 <==> HasMarker(s)
    decreases |s|
  {
    if |s| > 0 && MatchAt(s).None? {
      FindallIffHasMarker(s[1..]);
    }
  }

  /** When the version line is present, the rewritten text contains the
      replacement, whatever it is. */
  lemma {:induction false} ReplaceWritesReplacement(s: string, repl: string)
    requires HasMarker(s)
    ensures exists i :: OccursAt(ReplaceAll(s, repl), repl, i)
    decreases |s|
  {
    var t := ReplaceAll(s, repl);
    match MatchAt(s)
    case Some(n) =>
      assert OccursAt(t, repl, 0);
    case None =>
      ReplaceWritesReplacement(s[1..], repl);
      var i :| OccursAt(ReplaceAll(s[1..], repl), repl, i);
      assert t[1..] == ReplaceAll(s[1..], repl);
      assert t[i + 1..i + 1 + |repl|] == t[1..][i..i + |repl|];
      assert OccursAt(t, repl, i + 1);
  }

  /** With a dotted-number version, `re.findall` on the rewritten text finds
      the new version line once for each version line of the original and
      nothing else: no line with an old version survives `re.sub`. */
  lemma {:induction false} ReplaceWritesVersion(s: string, version: string)
    ensures IsVersionText(version) ==>
      var found := Findall(ReplaceAll(s, Marker(version)));
      && |found| == |Findall(s)|
      && forall j :: 0 <= j < |found| ==> found[j] == Marker(version)
    decreases |s|
  {
    var repl := Marker(version);
    if IsVersionText(version) && |s| > 0 {
      match MatchAt(s)
      case Some(n) =>
        var rest := ReplaceAll(s[n..], repl);
        ReplaceWritesVersion(s[n..], version);
        MarkerMatches(version, rest);
        assert (repl + rest)[|repl|..] == rest;
        assert (repl + rest)[..|repl|] == repl;
      case None =>
        var rest := ReplaceAll(s[1..], repl);
        ReplaceWritesVersion(s[1..], version);
        NoNewMatchBehind(s, version);
        assert ([s[0]] + rest)[1..] == rest;
    }
  }

  /** Running the README update twice with the same version gives the same
      text as running it once. */
  lemma UpdateReadmeIdempotent(content: string, version: string)
    requires IsVersionText(version) && HasMarker(content)
    ensures UpdateReadme(content, version).Some?
    ensures var once := UpdateReadme(content, version).value;
      UpdateReadme(once, version) == Some(once)
  {
    ReplaceKeepsMarker(content, version);
    ReplaceIdempotent(content, version);
  }
}

=== FILE: registry.dfy ===
/** The host's device registry entries, as far as the integration reads
    them, and the two Python idioms it applies to their optional string
    fields: `x or y` and f-string rendering. */
module Registry {
  import opened Wrappers

  /** `MANUFACTURER` and `MODEL` of `const.py`: the manufacturer the
      candidate test looks for and the device-card fallbacks. */
  const Manufacturer := "Juno"
  const Model := "RB56SC"

  /** A device registry entry. Every text field but the id may be `None`. */
  datatype Device = Device(
    id: string,
    name: Option<string>,
    manufacturer: Option<string>,
    model: Option<string>,
    swVersion: Option<string>
  )

  /** Python truthiness of a `str | None`: present and non-empty. */
  predicate Truthy(o: Option<string>) {
    o.Some? && o.value != ""
  }

  /** `a or b` on two `str | None` values. */
  function Or(a: Option<string>, b: Option<string>): Option<string> {
    if Truthy(a) then a else b
  }

  /** `a or default` with a string default: `Or` whose result is always a
      string. */
  function OrDefault(a: Option<string>, default: string): (r: string)
    ensures Truthy(a) ==> r == a.value
    ensures !Truthy(a) ==> r == default
  {
    Or(a, Some(default)).value
  }

  /** `f"{o}"`: the text itself, or "None" for a missing value. */
  function Show(o: Option<string>): string {
    match o
    case Some(s) => s
    case None => "None"
  }
}

=== FILE: release.dfy ===
/** `main` of `scripts/bump_version.py` with the file system taken out:
    the three project files are values (absent when the file does not
    exist), the command line is a record, and the date is a parameter.
    The manifest is modelled as a map from keys to string values. */
module Release {
  import opened Wrappers
  import SemVer
  import Changelog
  import Readme
  import Text

  /** The parsed command line: the positional bump type and the three options. */
  datatype Args = Args(
    bumpType: string,
    version: Option<string>,  // --version
    changes: string,          // --changes, "" by default
    noChangelog: bool         // --no-changelog
  )

  /** The files the script reads and rewrites; `None` for a missing file. */
  datatype Project = Project(
    manifest: Option<map<string, string>>,
    readme: Option<string>,
    changelog: Option<seq<string>>
  )

  datatype ReleaseError =
    | ManifestMissing                         // exit status 1
    | VersionKeyMissing                       // KeyError in get_current_version
    | BumpFailed(error: SemVer.BumpError)     // ValueError in bump_version

  const VersionKey := "version"

  /** The version-choice branch: a non-empty `--version` is taken as given
      (the current version is then not even parsed); otherwise the current
      version is bumped. */
  function NewVersion(current: string, args: Args): (r: Result<string, SemVer.BumpError>)
    ensures args.version.Some? && args.version.value != "" ==> r == Ok(args.version.value)
    ensures (args.version.None? || args.version.value == "") && r.Ok? ==>
              SemVer.Parse(current).Ok? && SemVer.Parse(r.value).Ok?
              && SemVer.Less(SemVer.Parse(current).value, SemVer.Parse(r.value).value)
    ensures (args.version.None? || args.version.value == "") ==>
              r == SemVer.BumpVersion(current, args.bumpType)
    ensures ((args.version.None? || args.version.value == "") && SemVer.Parse(current).Ok?
             && args.bumpType in {"major", "minor", "patch"}) ==> r.Ok?
  {
    if args.version.Some? && args.version.value != "" then Ok(args.version.value)
    else SemVer.BumpVersion(current, args.bumpType)
  }

  /** The whole run: read the current version, choose the new one, then
      rewrite the manifest, the README (when present) and the changelog
      (when present and not switched off). Returns the new version and the
      rewritten files. */
  function Run(project: Project, args: Args, date: string): (r: Result<(string, Project), ReleaseError>)
    ensures project.manifest.None? ==> r == Err(ManifestMissing)
    ensures project.manifest.Some? && VersionKey !in project.manifest.value ==>
              r == Err(VersionKeyMissing)
    ensures project.manifest.Some? && VersionKey in project.manifest.value ==>
      var chosen := NewVersion(project.manifest.value[VersionKey], args);
      && (chosen.Err? ==> r == Err(BumpFailed(chosen.error)))
      && (chosen.Ok? ==> r.Ok? && r.value.0 == chosen.value)
    ensures r.Ok? ==>
      var (newVersion, out) := r.value;
      var manifest := project.manifest.value;
      && (project.readme.Some? && Readme.HasMarker(project.readme.value) ==>
            out.readme == Readme.UpdateReadme(project.readme.value, newVersion))
      && (project.readme.Some? && !Readme.HasMarker(project.readme.value) ==>
            out.readme == project.readme)
      && (!args.noChangelog && project.changelog.Some? ==>
            out.changelog == Some(Changelog.Prepare(project.changelog.value, newVersion, date, args.changes)))
      && out.manifest.Some?
      && out.manifest.value.Keys == manifest.Keys
      && out.manifest.value[VersionKey] == newVersion
      && (forall k :: k in manifest && k != VersionKey ==> out.manifest.value[k] == manifest[k])
      && out.readme.Some? == project.readme.Some?
      && out.changelog.Some? == project.changelog.Some?
      && (args.noChangelog ==> out.changelog == project.changelog)
  {
    if project.manifest.None? then Err(ManifestMissing)
    else
      var manifest := project.manifest.value;
      if VersionKey !in manifest then Err(VersionKeyMissing)
      else
        match NewVersion(manifest[VersionKey], args)
        case Err(e) => Err(BumpFailed(e))
        case Ok(newVersion) =>
          Ok((newVersion, Project(
            Some(UpdateManifest(manifest, newVersion)),
            UpdateReadmeFile(project.readme, newVersion),
            UpdateChangelogFile(project.changelog, newVersion, date, args))))
  }

  /** `update_manifest`: the version key is set, every other key is kept. */
  function UpdateManifest(manifest: map<string, string>, newVersion: string): (r: map<string, string>)
    ensures r.Keys == manifest.Keys + {VersionKey}
    ensures r[VersionKey] == newVersion
    ensures forall k :: k in manifest && k != VersionKey ==> r[k] == manifest[k]
  {
    manifest[VersionKey := newVersion]
  }

  /** The README step: a missing file stays missing, a file without the
      version line is left as it was, any other is rewritten. */
  function UpdateReadmeFile(readme: Option<string>, newVersion: string): (r: Option<string>)
    ensures r.Some? == readme.Some?
    ensures readme.Some? && Readme.HasMarker(readme.value) ==>
              r == Readme.UpdateReadme(readme.value, newVersion)
    ensures readme.Some? && !Readme.HasMarker(readme.value) ==> r == readme
  {
    match readme
    case None => None
    case Some(content) => Some(Readme.UpdateReadme(content, newVersion).GetOr(content))
  }

  /** The changelog step: a present changelog gets the new entry unless
      `--no-changelog` is given; otherwise the file is left as it was. */
  function UpdateChangelogFile(changelog: Option<seq<string>>, newVersion: string, date: string, args: Args)
    : (r: Option<seq<string>>)
    ensures r.Some? == changelog.Some?
    ensures !args.noChangelog && changelog.Some? ==>
              r == Some(Changelog.Prepare(changelog.value, newVersion, date, args.changes))
    ensures args.noChangelog ==> r == changelog
  {
    if !args.noChangelog && changelog.Some? then
      Some(Changelog.Prepare(changelog.value, newVersion, date, args.changes))
    else changelog
  }

  /** A README without the version line, or a run with the changelog switched
      off, leaves that file exactly as it was; a changelog that is updated
      gets the new version's entry in front of its first version header. */
  lemma RunTouchesOnlyWhatItShould(project: Project, args: Args, date: string)
    requires Run(project, args, date).Ok?
    ensures var (newVersion, out) := Run(project, args, date).value;
      && (project.readme.Some? && !Readme.HasMarker(project.readme.value) ==>
            out.readme == project.readme)
      && (!args.noChangelog && project.changelog.Some? ==>
            var lines := out.changelog.value;
            var p := Changelog.InsertPos(project.changelog.value);
            && Changelog.InsertPos(lines) == p
            && lines[p] == Changelog.HeaderLine(newVersion, date))
  {
    var (newVersion, out) := Run(project, args, date).value;
    if !args.noChangelog && project.changelog.Some? {
      Changelog.NewEntryComesFirst(project.changelog.value, newVersion, date, args.changes);
    }
  }

  /** A printed version consists of digits and dots only, so the README
      pattern can match it. */
  lemma FormatIsVersionText(v: SemVer.Version)
    ensures Readme.IsVersionText(SemVer.Format(v))
  {
    var a, b, c := Text.NatToString(v.major), Text.NatToString(v.minor), Text.NatToString(v.patch);
    assert [a, b, c][1..] == [b, c] && [b, c][1..] == [c];
    assert Text.Join([b, c], '.') == b + ['.'] + c;
    assert SemVer.Format(v) == a + ['.'] + (b + ['.'] + c);
  }

  /** A release without `--version`, on a manifest whose version parses and
      with a valid bump type, writes `bump_version`'s result: a version above
      the current one goes into the manifest, every version line of a README
      that has one now shows it, and an updated changelog starts with its
      entry. */
  lemma BumpReleaseWritesBumpedVersion(project: Project, args: Args, date: string)
    requires args.version.None? || args.version.value == ""
    requires project.manifest.Some? && VersionKey in project.manifest.value
    requires SemVer.Parse(project.manifest.value[VersionKey]).Ok?
    requires args.bumpType in {"major", "minor", "patch"}
    ensures var current := project.manifest.value[VersionKey];
      var r := Run(project, args, date);
      && r.Ok?
      && r.value.0 == SemVer.BumpVersion(current, args.bumpType).value
      && SemVer.Less(SemVer.Parse(current).value, SemVer.Parse(r.value.0).value)
      && r.value.1.manifest.value[VersionKey] == r.value.0
      && (project.readme.Some? && Readme.HasMarker(project.readme.value) ==>
            var found := Readme.Findall(r.value.1.readme.value);
            && |found| == |Readme.Findall(project.readme.value)| > 0
            && forall j :: 0 <= j < |found| ==> found[j] == Readme.Marker(r.value.0))
      && (!args.noChangelog && project.changelog.Some? ==>
            var lines := r.value.1.changelog.value;
            lines[Changelog.InsertPos(lines)] == Changelog.HeaderLine(r.value.0, date))
  {
    var (newVersion, out) := Run(project, args, date).value;
    SemVer.FormatParse(newVersion);
    FormatIsVersionText(SemVer.Parse(newVersion).value);
    if !args.noChangelog && project.changelog.Some? {
      Changelog.NewEntryComesFirst(project.changelog.value, newVersion, date, args.changes);
    }
  }

  /** Example: a manifest at 1.2.3 and a minor bump write 1.3.0
      into the manifest and leave its other keys alone. */
  lemma MinorReleaseExample(manifest: map<string, string>, readme: Option<string>,
                            changelog: Option<seq<string>>, date: string)
    requires VersionKey in manifest && manifest[VersionKey] == "1.2.3"
    ensures var r := Run(Project(Some(manifest), readme, changelog),
                         Args("minor", None, "", true), date);
      && r.Ok? && r.value.0 == "1.3.0"
      && r.value.1.manifest == Some(manifest[VersionKey := "1.3.0"])
      && r.value.1.changelog == changelog
  {
    SemVer.MinorBumpExample();
    assert NewVersion("1.2.3", Args("minor", None, "", true)) == Ok("1.3.0");
  }
}

=== FILE: search.dfy ===
/** The `for x in xs: if p(x): ...; break` idiom shared by the release
    script and the light platform: the first element that passes a test. */
module Search {
  import opened Wrappers

  /** The index of the first element at or after `i` that satisfies `p`,
      or `None` when no such element exists. */
  function FirstFrom<T>(xs: seq<T>, p: T -> bool, i: nat): (r: Option<nat>)
    requires i <= |xs|
    ensures r.Some? ==> i <= r.value < |xs| && p(xs[r.value])
    ensures r.Some? ==> forall j :: i <= j < r.value ==> !p(xs[j])
    ensures r.None? ==> forall j :: i <= j < |xs| ==> !p(xs[j])
    decreases |xs| - i
  {
    if i == |xs| then None
    else if p(xs[i]) then Some(i)
    else FirstFrom(xs, p, i + 1)
  }
}

=== FILE: semver.dfy ===
/** Version arithmetic of `scripts/bump_version.py`: a version string
    `"M.m.p"` is read as three natural numbers, bumped by one of the three
    kinds of Semantic Versioning 2.0.0 (items 6 to 8: the bumped component
    goes up by one and every lower component resets to zero), and printed
    back as `"x.y.z"`. */
module SemVer {
  import opened Wrappers
  import opened Text

  datatype Version = Version(major: nat, minor: nat, patch: nat)

  /** The two ways `bump_version` raises `ValueError`. */
  datatype BumpError =
    | InvalidVersion(version: string)    // not three dot-separated integers
    | InvalidBumpType(bumpType: string)  // not "major", "minor" or "patch"

  /** Precedence of plain `M.m.p` versions (Semantic Versioning item 11):
      compare major, then minor, then patch, numerically. */
  predicate Less(v: Version, w: Version) {
    || v.major < w.major
    || (v.major == w.major && v.minor < w.minor)
    || (v.major == w.major && v.minor == w.minor && v.patch < w.patch)
  }

  /** `f"{major}.{minor}.{patch}"`. */
  function Format(v: Version): string {
    Join([NatToString(v.major), NatToString(v.minor), NatToString(v.patch)], '.')
  }

  /** `major, minor, patch = map(int, version.split("."))`: exactly three
      dot-separated components, each a non-empty digit string. */
  function Parse(version: string): (r: Result<Version, BumpError>)
    ensures r.Err? ==> r.error == InvalidVersion(version)
    ensures r.Ok? <==>
      var parts := Split(version, '.');
      |parts| == 3 && ParseNat(parts[0]).Some? && ParseNat(parts[1]).Some? && ParseNat(parts[2]).Some?
    ensures r.Ok? ==>
      var parts := Split(version, '.');
      r.value == Version(ParseNat(parts[0]).value, ParseNat(parts[1]).value, ParseNat(parts[2]).value)
  {
    var parts := Split(version, '.');
    if |parts| != 3 then Err(InvalidVersion(version))
    else
      match (ParseNat(parts[0]), ParseNat(parts[1]), ParseNat(parts[2]))
      case (Some(major), Some(minor), Some(patch)) => Ok(Version(major, minor, patch))
      case _ => Err(InvalidVersion(version))
  }

  /** A version string exactly as `Format` prints one: three canonical
      numerals (no leading zeros) separated by dots. */
  predicate IsCanonicalVersion(version: string) {
    var parts := Split(version, '.');
    |parts| == 3 && IsCanonicalNumeral(parts[0]) && IsCanonicalNumeral(parts[1])
    && IsCanonicalNumeral(parts[2])
  }

  /** `"1.02.3".split(".")` is `["1", "02", "3"]`. */
  lemma SplitExample()
    ensures Split("1.02.3", '.') == ["1", "02", "3"]
  {
    var parts := ["1", "02", "3"];
    assert Join(parts[1..], '.') == "02.3" by {
      assert parts[1..][1..] == ["3"];
    }
    assert Join(parts, '.') == "1.02.3";
    SplitJoin(parts, '.');
  }

  /** Example: a component with a leading zero reads as its value, as
      `int("02")` does, so "1.02.3" is the version (1, 2, 3). */
  lemma LeadingZeroParseExample()
    ensures Parse("1.02.3") == Ok(Version(1, 2, 3))
  {
    SplitExample();
    ComponentExamples();
  }

  /** `int("1")`, `int("02")` and `int("3")`. */
  lemma ComponentExamples()
    ensures ParseNat("1") == Some(1) && ParseNat("02") == Some(2) && ParseNat("3") == Some(3)
  {
    LeadingZeroIgnored("2");
    assert "0" + "2" == "02";
  }

  /** The printed form of a version is canonical and parses back to it,
      so every version the script writes is a valid input to the next run. */
  lemma ParseFormat(v: Version)
    ensures IsCanonicalVersion(Format(v))
    ensures Parse(Format(v)) == Ok(v)
  {
    var parts := [NatToString(v.major), NatToString(v.minor), NatToString(v.patch)];
    NumeralHasNoDot(parts[0]);
    NumeralHasNoDot(parts[1]);
    NumeralHasNoDot(parts[2]);
    SplitJoin(parts, '.');
    NatToStringRoundTrip(v.major);
    NatToStringRoundTrip(v.minor);
    NatToStringRoundTrip(v.patch);
  }

  lemma NumeralHasNoDot(s: string)
    requires AllDigits(s)
    ensures '.' !in s
  {
    assert forall j :: 0 <= j < |s| ==> s[j] != '.';
  }

  /** Conversely a canonical version string is the printed form of what it
      parses to. */
  lemma FormatParse(version: string)
    requires IsCanonicalVersion(version)
    ensures Parse(version).Ok? && Format(Parse(version).value) == version
  {
    var parts := Split(version, '.');
    CanonicalNumeralRoundTrip(parts[0]);
    CanonicalNumeralRoundTrip(parts[1]);
    CanonicalNumeralRoundTrip(parts[2]);
    JoinSplit(version, '.');
    assert [parts[0], parts[1], parts[2]] == parts;
  }

  /** The `if`/`elif` chain of `bump_version` on an already parsed version. */
  function Bump(v: Version, bumpType: string): (r: Result<Version, BumpError>)
    ensures r.Ok? <==> bumpType in {"major", "minor", "patch"}
    ensures r.Err? ==> r.error == InvalidBumpType(bumpType)
    ensures r.Ok? ==> Less(v, r.value)
  {
    if bumpType == "major" then Ok(Version(v.major + 1, 0, 0))
    else if bumpType == "minor" then Ok(Version(v.major, v.minor + 1, 0))
    else if bumpType == "patch" then Ok(Version(v.major, v.minor, v.patch + 1))
    else Err(InvalidBumpType(bumpType))
  }

  /** A patch bump is the immediate successor of `v` in precedence order:
      no version lies strictly between the two. */
  lemma PatchIsSuccessor(v: Version, w: Version)
    requires Less(v, w)
    ensures Bump(v, "patch").Ok? && Less(v, Bump(v, "patch").value)
    ensures w == Bump(v, "patch").value || Less(Bump(v, "patch").value, w)
  {
  }

  /** A minor bump keeps the major component and is the least version
      above `v` whose (major, minor) pair differs from that of `v`. */
  lemma MinorIsLeastNewMinor(v: Version, w: Version)
    requires Less(v, w) && (w.major, w.minor) != (v.major, v.minor)
    ensures Bump(v, "minor").Ok?
    ensures Bump(v, "minor").value.major == v.major
    ensures Bump(v, "minor").value.minor != v.minor
    ensures w == Bump(v, "minor").value || Less(Bump(v, "minor").value, w)
  {
  }

  /** A major bump is the least version above `v` with a different major
      component. */
  lemma MajorIsLeastNewMajor(v: Version, w: Version)
    requires Less(v, w) && w.major != v.major
    ensures Bump(v, "major").Ok? && Bump(v, "major").value.major != v.major
    ensures w == Bump(v, "major").value || Less(Bump(v, "major").value, w)
  {
  }

  /** `bump_version(version, bump_type)`: parse, bump, print. The version
      is parsed before the bump type is looked at, so a malformed version
      is reported even when the bump type is also wrong. */
  function BumpVersion(version: string, bumpType: string): (r: Result<string, BumpError>)
    ensures Parse(version).Err? ==> r == Err(InvalidVersion(version))
    ensures Parse(version).Ok? && bumpType !in {"major", "minor", "patch"} ==>
              r == Err(InvalidBumpType(bumpType))
    ensures Parse(version).Ok? && bumpType in {"major", "minor", "patch"} ==> r.Ok?
    ensures r.Ok? ==> IsCanonicalVersion(r.value) && Parse(r.value).Ok?
    ensures r.Ok? ==> Less(Parse(version).value, Parse(r.value).value)
  {
    var v :- Parse(version);
    var w :- Bump(v, bumpType);
    ParseFormat(w);
    Ok(Format(w))
  }

  /** The three bump kinds on the string level: the bumped component goes
      up by one, higher ones are kept, lower ones reset to zero. */
  lemma BumpVersionComponents(version: string, bumpType: string)
    requires Parse(version).Ok?
    ensures var v := Parse(version).value;
      && (bumpType == "major" ==> BumpVersion(version, bumpType) == Ok(Format(Version(v.major + 1, 0, 0))))
      && (bumpType == "minor" ==> BumpVersion(version, bumpType) == Ok(Format(Version(v.major, v.minor + 1, 0))))
      && (bumpType == "patch" ==> BumpVersion(version, bumpType) == Ok(Format(Version(v.major, v.minor, v.patch + 1))))
  {
  }

  /** Example: "1.2.3" bumped by "minor" is "1.3.0". */
  lemma MinorBumpExample()
    ensures BumpVersion("1.2.3", "minor") == Ok("1.3.0")
  {
    FormatExamples();
    ParseFormat(Version(1, 2, 3));
    assert Bump(Version(1, 2, 3), "minor") == Ok(Version(1, 3, 0));
  }

  /** Example: the two versions of `MinorBumpExample` printed. */
  lemma FormatExamples()
    ensures Format(Version(1, 2, 3)) == "1.2.3"
    ensures Format(Version(1, 3, 0)) == "1.3.0"
  {
    assert NatToString(0) == "0" && NatToString(1) == "1";
    assert NatToString(2) == "2" && NatToString(3) == "3";
  }
}

=== FILE: text.dfy ===
/** String helpers standing in for the few Python `str` operations the
    scripts and the integration use: decimal numerals (`int()` and
    `f"{n}"`), `str.split` / `str.join` on one separator character,
    the `in` substring test, and `str.lower()`. */
module Text {
  import opened Wrappers

  // ---------------------------------------------------------------------------
  // Decimal numerals
  // ---------------------------------------------------------------------------

  predicate IsDigit(c: char) {
    '0' <= c <= '9'
  }

  predicate AllDigits(s: string) {
    forall i :: 0 <= i < |s| ==> IsDigit(s[i])
  }

  function DigitValue(c: char): nat
    requires IsDigit(c)
  {
    c as int - '0' as int
  }

  function DigitChar(d: nat): (c: char)
    requires d < 10
    ensures IsDigit(c) && DigitValue(c) == d
  {
    ('0' as int + d) as char
  }

  /** Value of a string of decimal digits, most significant digit first. */
  function DigitsValue(s: string): nat
    requires AllDigits(s)
    decreases |s|
  {
    if |s| == 0 then 0 else DigitsValue(s[..|s| - 1]) * 10 + DigitValue(s[|s| - 1])
  }

  /** A numeral as Python's `str(int)` prints a non-negative integer:
      at least one digit and no leading zero unless the number is zero. */
  predicate IsCanonicalNumeral(s: string) {
    |s| >= 1 && AllDigits(s) && (s[0] != '0' || |s| == 1)
  }

  /** Decimal rendering of a natural number, as `f"{n}"`. */
  function NatToString(n: nat): (s: string)
    ensures IsCanonicalNumeral(s)
    decreases n
  {
    if n < 10 then [DigitChar(n)] else NatToString(n / 10) + [DigitChar(n % 10)]
  }

  /** `int(s)` restricted to plain digit strings: `None` stands for the
      `ValueError` Python raises on an empty or non-numeric component. */
  function ParseNat(s: string): Option<nat> {
    if |s| >= 1 && AllDigits(s) then Some(DigitsValue(s)) else None
  }

  /** A leading zero does not change the value of a digit string. */
  lemma {:induction false} LeadingZeroValue(s: string)
    requires AllDigits(s)
    ensures AllDigits("0" + s) && DigitsValue("0" + s) == DigitsValue(s)
    decreases |s|
  {
    var t := "0" + s;
    if |s| > 0 {
      LeadingZeroValue(s[..|s| - 1]);
      assert t[..|t| - 1] == "0" + s[..|s| - 1];
    }
  }

  /** `int()` ignores leading zeros: `int("0" + s) == int(s)` for every
      non-empty digit string `s`. */
  lemma LeadingZeroIgnored(s: string)
    requires |s| >= 1 && AllDigits(s)
    ensures ParseNat("0" + s) == ParseNat(s)
  {
    LeadingZeroValue(s);
  }

  /** Reading back a rendered number gives the number. */
  lemma {:induction false} NatToStringRoundTrip(n: nat)
    ensures ParseNat(NatToString(n)) == Some(n)
    decreases n
  {
    var s := NatToString(n);
    if n >= 10 {
      NatToStringRoundTrip(n / 10);
      assert s[..|s| - 1] == NatToString(n / 10);
      assert DigitValue(s[|s| - 1]) == n % 10;
      assert DigitsValue(s) == (n / 10) * 10 + n % 10;
    }
  }

  lemma {:induction false} LeadingNonZeroIsPositive(s: string)
    requires |s| >= 1 && AllDigits(s) && s[0] != '0'
    ensures DigitsValue(s) >= 1
    decreases |s|
  {
    if |s| > 1 {
      LeadingNonZeroIsPositive(s[..|s| - 1]);
    }
  }

  /** Rendering a parsed canonical numeral gives back the same text, so
      canonical numerals and natural numbers are in one-to-one correspondence. */
  lemma {:induction false} CanonicalNumeralRoundTrip(s: string)
    requires IsCanonicalNumeral(s)
    ensures ParseNat(s).Some? && NatToString(ParseNat(s).value) == s
    decreases |s|
  {
    if |s| > 1 {
      var init := s[..|s| - 1];
      var last := s[|s| - 1];
      assert IsCanonicalNumeral(init);
      LeadingNonZeroIsPositive(init);
      CanonicalNumeralRoundTrip(init);
      var v := DigitsValue(s);
      assert v / 10 == DigitsValue(init) && v % 10 == DigitValue(last);
      assert DigitChar(DigitValue(last)) == last;
      assert s == init + [last];
    } else {
      assert DigitChar(DigitValue(s[0])) == s[0];
    }
  }

  // ---------------------------------------------------------------------------
  // Split and join on a separator character
  // ---------------------------------------------------------------------------

  /** Index of the first occurrence of `c` in `s`, or `|s|` when there is none. */
  function IndexOf(s: string, c: char): (i: nat)
    ensures i <= |s|
    ensures i < |s| ==> s[i] == c
    ensures forall j :: 0 <= j < i ==> s[j] != c
    decreases |s|
  {
    if |s| == 0 then 0 else if s[0] == c then 0 else 1 + IndexOf(s[1..], c)
  }

  /** `s.split(sep)`: the pieces between occurrences of `sep`; always at
      least one piece, and no piece contains the separator. */
  function Split(s: string, sep: char): (parts: seq<string>)
    ensures |parts| >= 1
    ensures forall k :: 0 <= k < |parts| ==> sep !in parts[k]
    decreases |s|
  {
    var i := IndexOf(s, sep);
    if i == |s| then [s] else [s[..i]] + Split(s[i + 1..], sep)
  }

  /** `sep.join(parts)`. */
  function Join(parts: seq<string>, sep: char): string
    decreases |parts|
  {
    if |parts| == 0 then ""
    else if |parts| == 1 then parts[0]
    else parts[0] + [sep] + Join(parts[1..], sep)
  }

  /** Joining the pieces of a split gives back the original string. */
  lemma {:induction false} JoinSplit(s: string, sep: char)
    ensures Join(Split(s, sep), sep) == s
    decreases |s|
  {
    var i := IndexOf(s, sep);
    if i < |s| {
      var rest := s[i + 1..];
      var tail := Split(rest, sep);
      var parts := [s[..i]] + tail;
      assert Split(s, sep) == parts;
      assert parts[1..] == tail;
      assert Join(parts, sep) == s[..i] + [sep] + Join(tail, sep);
      JoinSplit(rest, sep);
      assert s == s[..i] + [sep] + rest;
    }
  }

  /** Splitting a join of separator-free pieces gives back the pieces. */
  lemma {:induction false} SplitJoin(parts: seq<string>, sep: char)
    requires |parts| >= 1
    requires forall k :: 0 <= k < |parts| ==> sep !in parts[k]
    ensures Split(Join(parts, sep), sep) == parts
    decreases |parts|
  {
    if |parts| > 1 {
      var s := Join(parts, sep);
      var rest := Join(parts[1..], sep);
      assert s == parts[0] + [sep] + rest;
      assert s[|parts[0]|] == sep;
      assert forall j :: 0 <= j < |parts[0]| ==> s[j] == parts[0][j];
      assert IndexOf(s, sep) == |parts[0]|;
      assert s[..|parts[0]|] == parts[0];
      assert s[|parts[0]| + 1..] == rest;
      SplitJoin(parts[1..], sep);
    } else {
      assert IndexOf(parts[0], sep) == |parts[0]|;
    }
  }

  // ---------------------------------------------------------------------------
  // Substrings and case
  // ---------------------------------------------------------------------------

  /** Python's `p in s` for strings, scanning `s` from the left. */
  function Contains(s: string, p: string): bool
    decreases |s|
  {
    p <= s || (|s| > 0 && Contains(s[1..], p))
  }

  /** `p` occurs in `s` starting at offset `i`. */
  predicate OccursAt(s: string, p: string, i: int) {
    0 <= i <= |s| - |p| && s[i..i + |p|] == p
  }

  /** `p in s` holds exactly when `p` occurs at some offset of `s`. */
  lemma {:induction false} ContainsIffOccurs(s: string, p: string)
    ensures Contains(s, p) <==> exists i :: OccursAt(s, p, i)
    decreases |s|
  {
    if p <= s {
      assert OccursAt(s, p, 0);
    } else if |s| > 0 {
      ContainsIffOccurs(s[1..], p);
      if exists i :: OccursAt(s, p, i) {
        var i :| OccursAt(s, p, i);
        assert i != 0;
        assert OccursAt(s[1..], p, i - 1);
      }
      if Contains(s[1..], p) {
        var i :| OccursAt(s[1..], p, i);
        assert OccursAt(s, p, i + 1);
      }
    } else {
      assert forall i :: !OccursAt(s, p, i);
    }
  }

  /** ASCII case folding, the part of `str.lower()` the model needs. */
  function LowerChar(c: char): char {
    if 'A' <= c <= 'Z' then (c as int - 'A' as int + 'a' as int) as char else c
  }

  function Lower(s: string): string {
    seq(|s|, i requires 0 <= i < |s| => LowerChar(s[i]))
  }
}

=== FILE: wrappers.dfy ===
/** Failure-carrying return types shared by every module of the model.
    Python's `None` and raised exceptions are both represented by these. */
module Wrappers {

  /** A value that may be absent; stands for Python's `T | None`. */
  datatype Option<+T> = None | Some(value: T) {

    /** The wrapped value, or `default` when absent. */
    function GetOr(default: T): T {
      match this
      case Some(v) => v
      case None => default
    }
  }

  /** Either a computed value or the error a Python function would raise. */
  datatype Result<+T, +E> = Ok(value: T) | Err(error: E) {

    predicate IsFailure() {
      Err?
    }

    function PropagateFailure<U>(): Result<U, E>
      requires Err?
    {
      Err(error)
    }

    function Extract(): T
      requires Ok?
    {
      value
    }
  }
}
